=== FILE: README.md ===
# Chat application core, modelled in Dafny

This project models the sequential logic of a small chat application. It
has two interchangeable backends, NestJS and FastAPI, that speak one
protocol, and a React client. Both backends keep one flat MongoDB
collection of messages. The modelled parts are:

- **Message store** (`message_store.dfy`, `aggregation.dfy`).
  - The store is an append-only sequence of `Message(conversationId, role, content, createdAt)`.
  - The history read filters by conversation and sorts by `createdAt` ascending. The sort is stable, so equal times keep insertion order.
  - A bulk delete removes one conversation.
  - The aggregation gives one summary row per conversation. It has latest and earliest message, count, and rows ordered by latest activity, descending.
- **Blocking reply** (`reply_service.dfy`).
  - The service saves the user message, sends the system prompt and the history to the provider, then saves and returns the reply, or returns an apology.
  - Both backends are modelled, as the variants `Nest` and `FastApi` of one function.
  - They differ where the provider returns no choices. NestJS reads `choices[0]?.` and falls back to a fixed text. Python indexes `choices[0]` and raises `IndexError`.
- **Streamed reply** (`stream_service.dfy`).
  - The server-sent events are a datatype: `start`, `content*`, then `end` or `error`.
  - The assistant text is saved only after the provider stream is consumed.
  - The two backends put their failure boundaries in different places. In NestJS everything sits inside the `try`. In FastAPI the user save and the history read sit before it, so their failures escape the generator with no event at all.
- **Client** (`sse_frames.dfy`, `chat_client.dfy`).
  - The input guard uses ECMAScript `trim`.
  - The read loop appends each chunk to a buffer and splits on `"\n\n"` with `String.prototype.split` semantics. It keeps the last piece and handles the complete frames.
  - The event handler and the clean-up after a failure are modelled.
- **Sidebar** (`sidebar.dfy`): `truncateText`, the title of a row, and the local list update after a delete.

The provider, the store's failures, the clock, the HTTP response, the
reader's failures and the JSON parser and encoder are all parameters. They
are not modelled code: `provider` maps the context it receives to its
outcome; `Faults` says which store call raises; `now`, `tUser` and `tReply`
are clock readings; `decode` stands for `JSON.parse`; `enc` for the server's
JSON encoding. `common.dfy` holds `Option`, `Result` and string
concatenation. `sorting.dfy` holds a stable insertion sort by an integer
key, with the lemmas that tie its first and last elements to the
earliest and latest members.

## Model

| member | source | states |
|---|---|---|
| MessageStore.History | backend/src/chatbot/chatbot.service.ts:88-93 | The history holds exactly the messages of the conversation, as a multiset. It is in non-decreasing `createdAt` order, and it is empty exactly when the store never mentions the id. |
| MessageStore.AppendedIsNewest | backend/src/chatbot/chatbot.service.ts:29-38 | A message stored no earlier than any other becomes the last entry of its conversation's history, and the entries before it are the history as it was. |
| MessageStore.DeleteConversation | backend/src/chatbot/chatbot.service.ts:130-132 | Deleting removes every message of the id and nothing else; multiplicities are kept. The deleted count plus the remaining size is the old size, and the count equals the length of the deleted history. |
| MessageStore.WithoutAppend | backend/src/chatbot/chatbot.service.ts:131 | Removal distributes over concatenation of stores, so the remaining messages keep their relative order. |
| MessageStore.DeleteKeepsOthers | backend/src/chatbot/chatbot.service.ts:131 | After a delete, the deleted conversation's history is empty. Every other conversation's messages and history are unchanged. |
| MessageStore.DeleteReportsRemoval | backend-fastapi/app/chatbot/service.py:141-145 | `delete_conversation` returns true exactly when the store mentioned the id. |
| MessageStore.DeleteIdempotent | backend-fastapi/app/chatbot/service.py:144-145 | Deleting the same id again leaves the store unchanged, removes 0 messages and reports false. |
| Aggregation.Conversations | backend/src/chatbot/chatbot.service.ts:95-128 | There is one row per conversation the store mentions and no other row, with distinct ids. Each row describes its conversation: count, latest message's content, role and time, earliest message's content. Rows are ordered by `lastMessageTime`, non-increasing. |
| Aggregation.SummaryOfSummarizes | backend-fastapi/app/chatbot/service.py:108-119 | A group's row has the conversation's id and count. Its last fields come from a message of maximal time and its first message from a message of minimal time. |
| Aggregation.SummaryAgreesWithHistory | backend/src/chatbot/chatbot.service.ts:98-108 | Each listed row agrees with its conversation's history read. The count is the history's length, the last fields are the history's last entry, and the first message is the history's first entry. |
| Aggregation.CountsSumToStoreSize | backend/src/chatbot/chatbot.service.ts:107 | The message counts of all rows sum to the size of the store. |
| ReplyService.ContextShape | backend/src/chatbot/chatbot.service.ts:40-56 | The provider context is the system prompt followed by the role and content of every history message, in order. |
| ReplyService.ContextEndsWithUserMessage | backend-fastapi/app/chatbot/service.py:33-56 | With a monotone clock, the context is the system prompt, then the conversation as it was, then the new user message last. |
| ReplyService.Draft | backend/src/chatbot/chatbot.service.ts:61-63 | A drafted reply is never empty. It is the provider content unless that is empty or missing, in which case it is the fixed fallback. It is an error exactly when the provider call fails, or, in Python only, when there are no choices. |
| ReplyService.ProcessMessage | backend/src/chatbot/chatbot.service.ts:26-86 | The service raises exactly when the user save or the history read fails. A failed user save raises with the store unchanged; a failed history read raises the read's error, with the user message already stored. The user message is always stored first. Otherwise it apologizes exactly when the drafted reply is an error (a failed provider call, or no choices in Python) or the reply save fails, and an apology adds nothing after the user message, carries the request's conversation id and, as its error, the provider failure's reason or else the reply save's. An empty completion, or no choices in NestJS, is answered with the fixed fallback. A reply is non-empty and stamped with the reply time. The store grows by exactly the user message and the stored reply, and the reply comes from the provider's choice when it differs from the fallback. |
| ReplyService.ProviderFailureApologizes | backend/src/chatbot/chatbot.service.ts:50-85 | A failed provider call, after the user save and history read, returns the apology with the failure's reason and stores only the user message. |
| ReplyService.BackendsDifferOnlyOnMissingChoices | backend-fastapi/app/chatbot/service.py:58-92 | The two backends return the same result unless the provider gives no choices. Then, with no store fault, NestJS answers with the fallback and FastAPI apologizes with "list index out of range". |
| ReplyService.FirstExchange | backend/src/chatbot/chatbot.service.ts:29-77 | When the provider answers with a choice, the first message of a fresh conversation leaves exactly the user message and the reply in its history, in that order. |
| StreamService.Relay | backend/src/chatbot/chatbot.service.ts:181-189 | The relayed pieces are non-empty. Only FastAPI breaks, and only on a chunk without choices. Otherwise the pieces are exactly the non-empty deltas in arrival order. |
| StreamService.NonEmptyDeltasText | backend-fastapi/app/chatbot/service.py:196-198 | Skipping empty deltas does not change the concatenated text. |
| StreamService.ProcessMessageStream | backend/src/chatbot/chatbot.service.ts:134-220 | Events are `[error]` or `start · content* · (end or error)`, and content payloads are non-empty. FastAPI raises, with no events, exactly when the user save or history read fails. On `end`, the store gained the user message and an assistant message holding the concatenated payloads. Otherwise no assistant message was stored, and the user message was stored unless its own save failed. |
| StreamService.Streamed | backend-fastapi/app/chatbot/service.py:185-223 | Everything inside the `try` produces a well-formed stream. A creation failure yields `[error]`. An opened stream starts with `start`, relays exactly the non-empty pieces the relay loop forwards, as `content` events, and ends in one final `end` or `error`. On `end` exactly one assistant message with the streamed text is added; otherwise nothing is. |
| StreamService.Finish | backend/src/chatbot/chatbot.service.ts:173-218 | Events are `start`, one content event per piece, then `end` exactly when neither the stream nor the save failed. The assistant text is saved only in that case, and it is the concatenation of the pieces. |
| StreamService.StreamRelaysChunks | backend/src/chatbot/chatbot.service.ts:173-206 | With no failure, the stream ends with `end`. Its payloads are the non-empty deltas, its content text is all deltas joined, and the saved assistant text is that text. |
| StreamService.EarlyFailureBoundary | backend-fastapi/app/chatbot/service.py:151-185 | A failing user save or history read gives `[error]` with no exception in NestJS, and an exception with no events in FastAPI. Both leave the same store. |
| StreamService.OpenFailureIsLoneError | backend-fastapi/app/chatbot/service.py:185-192 | If the provider stream cannot be created, both backends emit only `[error]`, after storing the user message. |
| StreamService.MidStreamFailureSavesNothing | backend/src/chatbot/chatbot.service.ts:181-218 | A stream that breaks, or whose reply save fails, ends with one apology `error` after `start`. The `content` events before that `error` carry exactly the non-empty deltas received, when every chunk has a choice or the backend is NestJS. The store holds only the added user message. |
| StreamService.StreamBackendsAgree | backend-fastapi/app/chatbot/service.py:195-199 | Once the user message and history are in place, the two backends stream identically unless a chunk lacks choices. |
| StreamService.EmptyChoicesBreaksFastApi | backend-fastapi/app/chatbot/service.py:196 | In FastAPI, a chunk without choices ends the stream with an index-error `error` after the earlier deltas, and nothing is saved. |
| StreamService.StreamAgreesWithBlocking | backend/src/chatbot/chatbot.service.ts:61-77 | When the blocking provider returns, as one non-empty choice, the text the stream delivers, both paths leave the same store, and the blocking reply is the streamed text. |
| SseFrames.FindSep | frontend/src/components/chatbot.component.tsx:112 | `split("\n\n")` cuts at the leftmost separator: no separator starts before the one found, and none is found only when the text holds none. |
| SseFrames.SplitJoin | frontend/src/components/chatbot.component.tsx:112 | Joining the pieces with the separator gives the buffer back. |
| SseFrames.SplitPiecesFree | frontend/src/components/chatbot.component.tsx:112 | No piece contains the separator. |
| SseFrames.SplitReassembles | frontend/src/components/chatbot.component.tsx:111-113 | The kept buffer has no separator. With no complete frame, it is the whole text. Otherwise the frames, separators and buffer reassemble the old buffer plus the chunk. |
| SseFrames.SplitAppend | frontend/src/components/chatbot.component.tsx:106-113 | Splitting more text only re-splits the last piece: the earlier frames are final. |
| ChatClient.Trim | frontend/src/components/chatbot.component.tsx:54 | `trim()` is empty exactly when the input is all ECMAScript whitespace. Otherwise it starts and ends with a non-space. |
| ChatClient.TrimIsInner | frontend/src/components/chatbot.component.tsx:58 | The trimmed text is the slice of the input between its leading and trailing whitespace. |
| ChatClient.TrimIdempotent | frontend/src/components/chatbot.component.tsx:54-58 | Trimming twice is trimming once. |
| ChatClient.SetContent | frontend/src/components/chatbot.component.tsx:123-135 | A content update replaces only the placeholder's content, and only when the index is in range. Every other message, and the length, are unchanged. |
| ChatClient.SetTimestamp | frontend/src/components/chatbot.component.tsx:139-151 | An end update replaces only the placeholder's timestamp, and only when the index is in range. |
| ChatClient.HandleEvent | frontend/src/components/chatbot.component.tsx:120-157 | A `content` event appends its payload to the streamed text and, when the index is in range, sets the placeholder's content to the whole streamed text. `end` changes only the placeholder's timestamp. No other message changes. As written, `error` changes nothing; with the repair it throws a non-empty message. |
| ChatClient.Kept | frontend/src/components/chatbot.component.tsx:168-170 | No assistant message with empty content survives the filter. |
| ChatClient.KeptCounts | frontend/src/components/chatbot.component.tsx:168-170 | Every other message survives as often as it occurs. |
| ChatClient.KeptAppend | frontend/src/components/chatbot.component.tsx:168-170 | The filter distributes over concatenation, so survivors keep their order. |
| ChatClient.Cleanup | frontend/src/components/chatbot.component.tsx:165-171 | The clean-up drops the sent user message and then every empty assistant message, keeping the rest in order on both sides. |
| ChatClient.Banner | frontend/src/components/chatbot.component.tsx:163 | The error banner is the error's message, or the fixed "try again" text when that is empty. It is never empty. |
| ChatClient.HandleFramesAppend | frontend/src/components/chatbot.component.tsx:115-159 | Handling frames in two batches is handling them all at once. |
| ChatClient.FeedChunkAppend | frontend/src/components/chatbot.component.tsx:111-113 | Two reads in a row end in the same state as one read of both chunks. |
| ChatClient.FeedAllIsOneRead | frontend/src/components/chatbot.component.tsx:106-113 | However the stream is cut into chunks, the read loop ends where one read of the whole stream would. |
| ChatClient.SplitWire | frontend/src/components/chatbot.component.tsx:111-116 | The server's stream of single-line frames splits into its frames, one per event, leaving an empty buffer. |
| ChatClient.FramesReplay | frontend/src/components/chatbot.component.tsx:115-118 | Frames with the "data: " prefix are parsed from the seventh character on, so handling the server's frames replays its events in order. |
| ChatClient.ReplayText | frontend/src/components/chatbot.component.tsx:120-121 | As written, the streamed text becomes the concatenation of the content payloads, and nothing is thrown. |
| ChatClient.SendMessage | frontend/src/components/chatbot.component.tsx:51-176 | Whitespace-only input does nothing. On success, the input is cleared and the list grows by the trimmed user message and an assistant message. A failed request (fetch, status or reader) or a failed read reports an error and gives the trimmed text back; a failed request leaves exactly the earlier surviving messages. Any failure leaves the earlier surviving messages plus at most a non-empty assistant message. Loading always ends. After a failed read the list is the clean-up of what the read loop built, so a non-empty partial reply is kept. |
| ChatClient.Send | frontend/src/components/chatbot.component.tsx:68-172 | A failed `fetch` shows its message (or the fixed text), a non-ok status shows "Failed to send message", and a missing reader shows "No response reader available". In each case the input gets the text back and the list is the earlier surviving messages. A failed read after the body opened also reports an error and restores the input. When a read reports an error, the list is the clean-up of the list the read loop built. |
| ChatClient.Stream | frontend/src/components/chatbot.component.tsx:92-172 | The read loop fills only the placeholder. A failed read always ends in the reported error with the input restored; when nothing was thrown before it, the banner is the read failure's message. A throw out of the loop also ends in the clean-up. Whenever an error is reported, the list is the clean-up of the list the loop built, so a non-empty partial reply stays. |
| ChatClient.ClientShowsStreamedText | frontend/src/components/chatbot.component.tsx:115-135 | For any chunking of the server's stream, the client shows no error, and the assistant message shows the concatenated content payloads. |
| ChatClient.ClientShowsSavedReply | frontend/src/components/chatbot.component.tsx:120-135 | When the server stream completes, the client shows the stored user text and, as the reply, exactly the assistant text the server saved. |
| ChatClient.ErrorEventIsSwallowed | frontend/src/components/chatbot.component.tsx:152-157 | As written, a stream ending in `error` shows no error. The input stays cleared, and the user message stays in the list. |
| ChatClient.FailedRunsGoUnreported | frontend/src/components/chatbot.component.tsx:152-163 | Every server run that ends in an `error` event rather than raising, whichever step failed (the user save and history read in NestJS included), goes unreported by the client as written, and is reported with the repair. |
| ChatClient.LoneErrorEvent | frontend/src/components/chatbot.component.tsx:152-172 | For the lone `error` a failed request sends: as written, no error and an empty assistant bubble after the user message. With the repair, the apology is shown, the text is restored, and both messages are removed. |
| ChatClient.IntendedReportsErrorEvent | frontend/src/components/chatbot.component.tsx:152-172 | With the repair, a stream ending in `error` shows an error and gives the text back. |
| ChatClient.IntendedAgreesWithoutErrors | frontend/src/components/chatbot.component.tsx:115-159 | The repair changes nothing for streams without an `error` event. |
| Sidebar.TruncateText | frontend/src/components/conversation-history.component.tsx:93-96 | A text up to `maxLength` is unchanged. A longer one becomes its first `maxLength` characters plus "...", so it has length `maxLength + 3`. Every result is at most `maxLength + 3` long. |
| Sidebar.TruncateIdempotent | frontend/src/components/conversation-history.component.tsx:93-96 | Truncating a truncated text again changes nothing. |
| Sidebar.TitleFromHistory | frontend/src/components/conversation-history.component.tsx:98-104 | A row's title is the newest message when the user sent it, otherwise the oldest, cut to 40 characters. It is at most 43 characters long. |
| Sidebar.RemoveRowsMembers | frontend/src/components/conversation-history.component.tsx:63-65 | The filtered list holds exactly the rows of other conversations. |
| Sidebar.RemoveRowsAppend | frontend/src/components/conversation-history.component.tsx:63-65 | The filter distributes over concatenation, so kept rows keep their order. |
| Sidebar.HandleDelete | frontend/src/components/conversation-history.component.tsx:50-75 | A new conversation starts exactly when a confirmed, successful delete hits the current one. The alert shows exactly when a confirmed request fails. A cancelled or failed delete leaves the list unchanged. A successful one is the list filtered to the other conversations' rows, in their original order. |
| Sidebar.ReloadMatchesLocalDelete | frontend/src/components/conversation-history.component.tsx:59-65 | After the store deletes a conversation, the list the server would send holds exactly the rows the sidebar keeps locally. |

## Left out

- HTTP and framework plumbing: controllers, routers, status codes, CORS and application start-up. These are transport, not logic.
- The MongoDB driver and connection handling. The store is an in-memory sequence, and the database's ordering of messages with equal `createdAt` is not specified. The history and the summaries break such ties by insertion order; Mongo may break them otherwise.
- The `_id` to string conversion in the Python reads. It is a serialisation pass-through.
- The OpenAI client, the model name, temperature and `max_tokens`. The provider is a parameter; a provider that returns a non-string content is not modelled.
- Mongoose's `required` validation on `content`. A store call that can fail is modelled instead, through `Faults`.
- JSON and SSE text encoding. Events are values. The Python f-string frames do no escaping, so a payload containing a quote or a line break produces frames the client cannot parse. The client lemmas assume an encoder that writes single-line text the parser reads back.
- `TextDecoder`: chunks are taken as already-decoded strings.
- Strings are sequences of Unicode scalar values. `length` and `substring` in JavaScript count UTF-16 code units, so `truncateText` differs for text outside the Basic Multilingual Plane.
- Sidebar.TruncateText: `maxLength` is a natural number. The only caller passes 40; negative lengths are not modelled.
- React scheduling. State updates are immediate sequential steps. The user message is identified by its position rather than by object identity, and the placeholder index is fixed at the list length.
- One clock reading `now` stamps both the user message and the placeholder in the client.
- The timestamp carried by `end` is a number. `new Date(...)` parsing is not modelled.
- `formatTime`, `loadHistory`, `loadConversations`, conversation-id generation and the Next.js pages. They involve the wall clock, the locale, randomness or rendering only.
- Concurrent sends to one conversation. The code has no locking, and interleaving is not modelled.
- The read loop leaves an unterminated final frame in the buffer unhandled. This is modelled, but no lemma is stated about it.
- Sidebar.ReloadMatchesLocalDelete: states agreement of the row sets, not of their order.

## Findings

| source | as written | input that shows it | evidently intended | confidence | as-written member | corrected member |
|---|---|---|---|---|---|---|
| frontend/src/components/chatbot.component.tsx:152-157 | An `error` event throws inside the per-frame `try`. Its `catch`, meant for parse errors, logs and continues, so the outer handler never runs. | The lone `error` event a backend sends when the provider stream cannot be created. The client shows no error, keeps the input cleared, and leaves the user message followed by an empty assistant bubble. | The throw reaches the outer `catch`: the banner shows the message, the input gets the text back, and the user message and empty placeholder are removed. | not executed | ChatClient.ErrorEventIsSwallowed | ChatClient.IntendedReportsErrorEvent |

=== FILE: aggregation.dfy ===
/** `getAllConversations` / `get_all_conversations`: the aggregation that
    reduces the store to one summary row per conversation. The database
    pipeline sorts by `createdAt` descending, groups with `$first`/`$last`,
    counts, and sorts the rows by `lastMessageTime` descending; here that is
    an explicit group-by whose "last" and "first" are the latest and the
    earliest message of the group. */
module Aggregation {
  import opened Sorting
  import opened MessageStore

  /** One row of the conversation list. */
  datatype Summary = Summary(
    conversationId: string,
    lastMessage: string,
    lastMessageRole: Role,
    lastMessageTime: nat,
    messageCount: nat,
    firstMessage: string)

  /** The distinct conversation ids of the store, in order of first appearance. */
  function Ids(s: Store): (ids: seq<string>)
    ensures forall i, j :: 0 <= i < j < |ids| ==> ids[i] != ids[j]
  {
    if |s| == 0 then []
    else
      var p := Ids(s[..|s| - 1]);
      if s[|s| - 1].conversationId in p then p else p + [s[|s| - 1].conversationId]
  }

  /** The ids listed are exactly those the store mentions. */
  lemma {:induction false} IdsAreMentioned(s: Store)
    ensures forall id :: id in Ids(s) <==> Mentions(s, id)
  {
    if |s| > 0 {
      var init, last := s[..|s| - 1], s[|s| - 1];
      assert s == init + [last];
      IdsAreMentioned(init);
      forall id ensures Mentions(s, id) <==> Mentions(init, id) || last.conversationId == id {
        if Mentions(s, id) {
          var m :| m in s && m.conversationId == id;
          if m != last {
            assert m in init;
          }
        }
        if Mentions(init, id) {
          var m :| m in init && m.conversationId == id;
          assert m in s;
        }
        if last.conversationId == id {
          assert last in s;
        }
      }
    }
  }

  /** The summary row of one conversation the store mentions: the latest
      message (the later one on equal times), the earliest message (the
      earlier one on equal times) and the message count. */
  function SummaryOf(s: Store, id: string): Summary
    requires Mentions(s, id)
  {
    CountPositive(s, id);
    var g := InConversation(s, id);
    var latest := MaxLast(g, CreatedAt);
    var earliest := MinFirst(g, CreatedAt);
    Summary(id, latest.content, latest.role, latest.createdAt, |g|, earliest.content)
  }

  /** `row` truthfully describes its conversation in `s`. */
  ghost predicate Summarizes(row: Summary, s: Store)
  {
    var id := row.conversationId;
    && Mentions(s, id)
    && row.messageCount == |History(s, id)|
    && (exists m :: m in s && m.conversationId == id && m.content == row.lastMessage
                     && m.role == row.lastMessageRole && m.createdAt == row.lastMessageTime)
    && (forall m :: m in s && m.conversationId == id ==> m.createdAt <= row.lastMessageTime)
    && (exists m :: m in s && m.conversationId == id && m.content == row.firstMessage
                     && forall m' :: m' in s && m'.conversationId == id ==> m.createdAt <= m'.createdAt)
  }

  /** A conversation's summary row describes it. */
  lemma SummaryOfSummarizes(s: Store, id: string)
    requires Mentions(s, id)
    ensures Summarizes(SummaryOf(s, id), s)
    ensures SummaryOf(s, id).conversationId == id
  {
    CountPositive(s, id);
    GroupHoldsMembers(s, id);
    var g := InConversation(s, id);
    var latest := MaxLast(g, CreatedAt);
    var earliest := MinFirst(g, CreatedAt);
    assert latest in s && latest.conversationId == id;
    assert earliest in s && earliest.conversationId == id;
    assert |History(s, id)| == |g|;
  }

  /** The group of a conversation holds exactly its messages. */
  lemma GroupHoldsMembers(s: Store, id: string)
    ensures forall m :: m in InConversation(s, id) <==> m in s && m.conversationId == id
  {
    InConversationCounts(s, id);
    forall m ensures m in InConversation(s, id) <==> m in s && m.conversationId == id {
      assert m in InConversation(s, id) <==> m in multiset(InConversation(s, id));
      assert m in s <==> m in multiset(s);
    }
  }

  /** One summary row per listed id. */
  function Rows(s: Store, ids: seq<string>): (rows: seq<Summary>)
    requires forall id :: id in ids ==> Mentions(s, id)
    ensures |rows| == |ids|
    ensures forall i :: 0 <= i < |rows| ==> rows[i] == SummaryOf(s, ids[i])
  {
    seq(|ids|, i requires 0 <= i < |ids| => SummaryOf(s, ids[i]))
  }

  /** Sort key putting the most recently active conversation first. */
  function Recency(row: Summary): int
  {
    -(row.lastMessageTime as int)
  }

  function RowId(row: Summary): string
  {
    row.conversationId
  }

  function MessageCount(row: Summary): int
  {
    row.messageCount
  }

  /** The conversation list: one row per conversation the store mentions,
      each describing its conversation, most recent activity first. */
  function Conversations(s: Store): (rows: seq<Summary>)
    ensures forall i :: 0 <= i < |rows| ==> Summarizes(rows[i], s)
    ensures forall i, j :: 0 <= i < j < |rows| ==> rows[i].conversationId != rows[j].conversationId
    ensures forall id :: Mentions(s, id) <==> exists i :: 0 <= i < |rows| && rows[i].conversationId == id
    ensures forall i, j :: 0 <= i < j < |rows| ==> rows[i].lastMessageTime >= rows[j].lastMessageTime
  {
    IdsAreMentioned(s);
    var rows := SortBy(Rows(s, Ids(s)), Recency);
    ListedRowsDescribe(s, rows);
    rows
  }

  lemma ListedRowsDescribe(s: Store, rows: seq<Summary>)
    requires forall id :: id in Ids(s) ==> Mentions(s, id)
    requires forall id :: Mentions(s, id) ==> id in Ids(s)
    requires rows == SortBy(Rows(s, Ids(s)), Recency)
    ensures forall i :: 0 <= i < |rows| ==> Summarizes(rows[i], s)
    ensures forall i, j :: 0 <= i < j < |rows| ==> rows[i].conversationId != rows[j].conversationId
    ensures forall id :: Mentions(s, id) <==> exists i :: 0 <= i < |rows| && rows[i].conversationId == id
    ensures forall i, j :: 0 <= i < j < |rows| ==> rows[i].lastMessageTime >= rows[j].lastMessageTime
  {
    RowsSummarize(s, rows);
    RowsCover(s, rows);
    PermutationKeepsDistinctKeys(Rows(s, Ids(s)), rows, RowId);
    forall i, j | 0 <= i < j < |rows|
      ensures rows[i].lastMessageTime >= rows[j].lastMessageTime
    {
      assert Recency(rows[i]) <= Recency(rows[j]);
    }
  }

  lemma RowsSummarize(s: Store, rows: seq<Summary>)
    requires forall id :: id in Ids(s) ==> Mentions(s, id)
    requires multiset(rows) == multiset(Rows(s, Ids(s)))
    ensures forall i :: 0 <= i < |rows| ==> Summarizes(rows[i], s)
  {
    forall i | 0 <= i < |rows| ensures Summarizes(rows[i], s) {
      var id := RowFrom(s, rows, i);
      SummaryOfSummarizes(s, id);
    }
  }

  lemma RowsCover(s: Store, rows: seq<Summary>)
    requires forall id :: id in Ids(s) <==> Mentions(s, id)
    requires multiset(rows) == multiset(Rows(s, Ids(s)))
    ensures forall id :: Mentions(s, id) <==> exists i :: 0 <= i < |rows| && rows[i].conversationId == id
  {
    forall id | Mentions(s, id)
      ensures exists i :: 0 <= i < |rows| && rows[i].conversationId == id
    {
      RowListed(s, rows, id);
    }
    forall i | 0 <= i < |rows| ensures Mentions(s, rows[i].conversationId) {
      var id := RowFrom(s, rows, i);
    }
  }

  /** A rearrangement of the rows holds only summaries of mentioned conversations. */
  lemma RowFrom(s: Store, rows: seq<Summary>, i: nat) returns (id: string)
    requires forall id :: id in Ids(s) ==> Mentions(s, id)
    requires multiset(rows) == multiset(Rows(s, Ids(s)))
    requires i < |rows|
    ensures Mentions(s, id) && rows[i] == SummaryOf(s, id) && rows[i].conversationId == id
  {
    var unsorted := Rows(s, Ids(s));
    assert rows[i] in multiset(unsorted);
    var k :| 0 <= k < |unsorted| && unsorted[k] == rows[i];
    id := Ids(s)[k];
  }

  /** A rearrangement of the rows holds a row for each mentioned conversation. */
  lemma RowListed(s: Store, rows: seq<Summary>, id: string)
    requires forall id :: id in Ids(s) <==> Mentions(s, id)
    requires multiset(rows) == multiset(Rows(s, Ids(s)))
    requires Mentions(s, id)
    ensures exists i :: 0 <= i < |rows| && rows[i].conversationId == id
  {
    var ids := Ids(s);
    var unsorted := Rows(s, ids);
    var k :| 0 <= k < |ids| && ids[k] == id;
    var row := unsorted[k];
    assert row == SummaryOf(s, id) && row.conversationId == id;
    assert row in multiset(rows);
    var i :| 0 <= i < |rows| && rows[i] == row;
  }

  /** Sum of the message counts of the listed ids. */
  function CountAll(s: Store, ids: seq<string>): int
  {
    if |ids| == 0 then 0 else CountAll(s, ids[..|ids| - 1]) + Count(s, ids[|ids| - 1])
  }

  lemma {:induction false} RowsCountAll(s: Store, ids: seq<string>)
    requires forall id :: id in ids ==> Mentions(s, id)
    ensures SumBy(Rows(s, ids), MessageCount) == CountAll(s, ids)
  {
    if |ids| > 0 {
      var init, id := ids[..|ids| - 1], ids[|ids| - 1];
      var rows := Rows(s, ids);
      RowsPrefix(s, ids);
      RowsCountAll(s, init);
      SummaryCount(s, id);
      assert rows == Rows(s, init) + [SummaryOf(s, id)];
    }
  }

  /** Dropping the last id drops the last row. */
  lemma RowsPrefix(s: Store, ids: seq<string>)
    requires forall id :: id in ids ==> Mentions(s, id)
    requires |ids| > 0
    ensures forall id :: id in ids[..|ids| - 1] ==> Mentions(s, id)
    ensures Rows(s, ids) == Rows(s, ids[..|ids| - 1]) + [SummaryOf(s, ids[|ids| - 1])]
  {
    var init := ids[..|ids| - 1];
    assert forall id :: id in init ==> id in ids;
    var whole, front := Rows(s, ids), Rows(s, init);
    forall i | 0 <= i < |front| ensures whole[i] == front[i] {
      assert init[i] == ids[i];
    }
    PointwiseSnoc(whole, front);
  }

  /** A sequence one longer than `front` that agrees with it on `front`'s
      positions is `front` followed by its last element. */
  lemma PointwiseSnoc<T>(whole: seq<T>, front: seq<T>)
    requires |whole| == |front| + 1
    requires forall i :: 0 <= i < |front| ==> whole[i] == front[i]
    ensures whole == front + [whole[|front|]]
  {
  }

  /** A summary counts its conversation's messages. */
  lemma SummaryCount(s: Store, id: string)
    requires Mentions(s, id)
    ensures MessageCount(SummaryOf(s, id)) == Count(s, id)
  {
  }

  /** Appending one message adds one to its conversation's count. */
  lemma CountAppend(s: Store, m: Message, id: string)
    ensures Count(s + [m], id) == Count(s, id) + if m.conversationId == id then 1 else 0
  {
    InConversationAppend(s, [m], id);
    assert [m][..0] == [];
  }

  /** Appending one message adds one to the total over distinct ids exactly
      when its conversation is among them. */
  lemma {:induction false} CountAllAppend(s: Store, m: Message, ids: seq<string>)
    requires forall i, j :: 0 <= i < j < |ids| ==> ids[i] != ids[j]
    ensures CountAll(s + [m], ids) == CountAll(s, ids) + if m.conversationId in ids then 1 else 0
  {
    if |ids| > 0 {
      var init := ids[..|ids| - 1];
      CountAllAppend(s, m, init);
      CountAppend(s, m, ids[|ids| - 1]);
      assert ids == init + [ids[|ids| - 1]];
    }
  }

  /** The counts over the store's ids add up to the store's size. */
  lemma {:induction false} CountAllIds(s: Store)
    ensures CountAll(s, Ids(s)) == |s|
  {
    if |s| > 0 {
      var init, m := s[..|s| - 1], s[|s| - 1];
      assert s == init + [m];
      CountAllIds(init);
      var p := Ids(init);
      CountAllAppend(init, m, p);
      if m.conversationId !in p {
        IdsAreMentioned(init);
        CountPositive(init, m.conversationId);
        CountAppend(init, m, m.conversationId);
        assert p + [m.conversationId] == Ids(s);
        assert (p + [m.conversationId])[..|p|] == p;
      }
    }
  }

  /** Every message is counted in exactly one row: the message counts of the
      conversation list sum to the size of the store. */
  lemma CountsSumToStoreSize(s: Store)
    ensures SumBy(Conversations(s), MessageCount) == |s|
  {
    IdsAreMentioned(s);
    var unsorted := Rows(s, Ids(s));
    SumByPermutation(unsorted, Conversations(s), MessageCount);
    RowsCountAll(s, Ids(s));
    CountAllIds(s);
  }

  /** A conversation's summary agrees with its history read. */
  lemma SummaryOfAgreesWithHistory(s: Store, id: string)
    requires Mentions(s, id)
    ensures var row := SummaryOf(s, id);
      var h := History(s, id);
      && |h| == row.messageCount > 0
      && h[|h| - 1].content == row.lastMessage
      && h[|h| - 1].role == row.lastMessageRole
      && h[|h| - 1].createdAt == row.lastMessageTime
      && h[0].content == row.firstMessage
  {
    CountPositive(s, id);
    var g := InConversation(s, id);
    SortLastIsMaxLast(g, CreatedAt);
    SortFirstIsMinFirst(g, CreatedAt);
  }

  /** Each row agrees with the history read of its conversation: the count is
      the history's length, the last message is the history's last entry and
      the first message is the history's first entry. */
  lemma SummaryAgreesWithHistory(s: Store, i: nat)
    requires i < |Conversations(s)|
    ensures var row := Conversations(s)[i];
      var h := History(s, row.conversationId);
      && |h| == row.messageCount > 0
      && h[|h| - 1].content == row.lastMessage
      && h[|h| - 1].role == row.lastMessageRole
      && h[|h| - 1].createdAt == row.lastMessageTime
      && h[0].content == row.firstMessage
  {
    var id := RowOrigin(s, i);
    SummaryOfAgreesWithHistory(s, id);
  }

  /** Each row of the conversation list is the summary of a mentioned conversation. */
  lemma RowOrigin(s: Store, i: nat) returns (id: string)
    requires i < |Conversations(s)|
    ensures Mentions(s, id) && Conversations(s)[i] == SummaryOf(s, id)
  {
    IdsAreMentioned(s);
    assert Conversations(s) == SortBy(Rows(s, Ids(s)), Recency);
    id := RowFrom(s, Conversations(s), i);
  }
}

=== FILE: chat_client.dfy ===
/** The chat widget's `sendMessage`: the input guard, the optimistic user
    message and assistant placeholder, the read loop that feeds each chunk
    to the frame splitter and each frame to the event handler, and the
    clean-up after a failure.

    React state updates are taken as immediate, sequential steps. The JSON
    parser is the parameter `decode` (`None` when `JSON.parse` throws or the
    value is not an event); the server's JSON encoder is the parameter `enc`
    of the wire lemmas. The response and the reader's failures are inputs. */
module ChatClient {
  import opened Common
  import opened SseFrames
  import MessageStore
  import ReplyService
  import StreamService

  type Event = StreamService.Event

  /** The characters ECMAScript's `trim` removes: WhiteSpace and LineTerminator. */
  predicate IsJsSpace(c: char)
  {
    || c == '\t' || c == '\n' || c == '\U{B}' || c == '\U{C}' || c == '\r' || c == ' '
    || c == '\U{A0}' || c == '\U{1680}' || ('\U{2000}' <= c <= '\U{200A}')
    || c == '\U{2028}' || c == '\U{2029}' || c == '\U{202F}' || c == '\U{205F}'
    || c == '\U{3000}' || c == '\U{FEFF}'
  }

  /** Every character of `s` is whitespace. */
  ghost predicate AllSpace(s: string)
  {
    forall i :: 0 <= i < |s| ==> IsJsSpace(s[i])
  }

  /** The first position at or after `i` that is not whitespace, or `|s|`. */
  function SkipSpace(s: string, i: nat): (r: nat)
    requires i <= |s|
    ensures i <= r <= |s|
    ensures forall j :: i <= j < r ==> IsJsSpace(s[j])
    ensures r < |s| ==> !IsJsSpace(s[r])
    decreases |s| - i
  {
    if i < |s| && IsJsSpace(s[i]) then SkipSpace(s, i + 1) else i
  }

  /** The position just after the last character before `j` that is not
      whitespace, looking no further back than `lo`. */
  function SkipSpaceBack(s: string, lo: nat, j: nat): (r: nat)
    requires lo <= j <= |s|
    ensures lo <= r <= j
    ensures forall k :: r <= k < j ==> IsJsSpace(s[k])
    ensures r > lo ==> !IsJsSpace(s[r - 1])
    decreases j
  {
    if j > lo && IsJsSpace(s[j - 1]) then SkipSpaceBack(s, lo, j - 1) else j
  }

  /** `s.trim()`: empty exactly when `s` is all whitespace, and otherwise
      starting and ending with a character that is not whitespace. */
  function Trim(s: string): (r: string)
    ensures r == [] <==> AllSpace(s)
    ensures r != [] ==> !IsJsSpace(r[0]) && !IsJsSpace(r[|r| - 1])
  {
    var a := SkipSpace(s, 0);
    var b := SkipSpaceBack(s, a, |s|);
    assert a < b ==> s[a..b][0] == s[a] && s[a..b][b - a - 1] == s[b - 1];
    s[a..b]
  }

  /** The trimmed text is the slice of `s` between its leading and trailing
      whitespace. */
  lemma TrimIsInner(s: string) returns (k: nat)
    ensures k + |Trim(s)| <= |s| && s[k..k + |Trim(s)|] == Trim(s)
    ensures forall i :: 0 <= i < k ==> IsJsSpace(s[i])
    ensures forall i :: k + |Trim(s)| <= i < |s| ==> IsJsSpace(s[i])
  {
    k := SkipSpace(s, 0);
  }

  /** Trimming twice is trimming once. */
  lemma TrimIdempotent(s: string)
    ensures Trim(Trim(s)) == Trim(s)
  {
    TrimKeeps(Trim(s));
  }

  /** A text that neither starts nor ends with whitespace is its own trim. */
  lemma TrimKeeps(s: string)
    requires s == [] || (!IsJsSpace(s[0]) && !IsJsSpace(s[|s| - 1]))
    ensures Trim(s) == s
  {
    assert SkipSpace(s, 0) == 0;
    assert SkipSpaceBack(s, 0, |s|) == |s|;
    assert s[0..|s|] == s;
  }

  /** Who wrote a message shown in the widget. */
  datatype Sender = User | Assistant

  /** A message as the widget shows it; the timestamp is optional. */
  datatype UiMessage = UiMessage(role: Sender, content: string, timestamp: Option<nat>)

  /** The copy-and-replace update at `index`, made only when the index is
      in range: the replaced message gets `content`. */
  function SetContent(messages: seq<UiMessage>, index: int, content: string): (r: seq<UiMessage>)
    ensures |r| == |messages|
    ensures forall j :: 0 <= j < |r| && j != index ==> r[j] == messages[j]
    ensures 0 <= index < |r| ==> r[index] == messages[index].(content := content)
  {
    if 0 <= index < |messages| then messages[index := messages[index].(content := content)] else messages
  }

  /** The same update of the timestamp alone. */
  function SetTimestamp(messages: seq<UiMessage>, index: int, t: nat): (r: seq<UiMessage>)
    ensures |r| == |messages|
    ensures forall j :: 0 <= j < |r| && j != index ==> r[j] == messages[j]
    ensures 0 <= index < |r| ==> r[index] == messages[index].(timestamp := Some(t))
  {
    if 0 <= index < |messages| then messages[index := messages[index].(timestamp := Some(t))] else messages
  }

  /** A message that survives the clean-up filter: not an assistant message
      with empty content. */
  predicate Keep(m: UiMessage)
  {
    m.role != Assistant || m.content != ""
  }

  /** The clean-up filter: drops every assistant message whose content is
      empty and keeps everything else, in order. */
  function Kept(messages: seq<UiMessage>): (r: seq<UiMessage>)
    ensures |r| <= |messages|
    ensures forall i :: 0 <= i < |r| ==> Keep(r[i])
  {
    if |messages| == 0 then []
    else
      var last := messages[|messages| - 1];
      Kept(messages[..|messages| - 1]) + (if Keep(last) then [last] else [])
  }

  /** The filter keeps every surviving message as often as it occurs. */
  lemma {:induction false} KeptCounts(messages: seq<UiMessage>)
    ensures forall m :: multiset(Kept(messages))[m] == if Keep(m) then multiset(messages)[m] else 0
  {
    if |messages| > 0 {
      var init := messages[..|messages| - 1];
      assert messages == init + [messages[|messages| - 1]];
      KeptCounts(init);
    }
  }

  /** The filter distributes over append, so the survivors keep their order. */
  lemma {:induction false} KeptAppend(a: seq<UiMessage>, b: seq<UiMessage>)
    ensures Kept(a + b) == Kept(a) + Kept(b)
    decreases |b|
  {
    if |b| == 0 {
      assert a + b == a;
    } else {
      var b' := b[..|b| - 1];
      assert (a + b)[..|a + b| - 1] == a + b';
      KeptAppend(a, b');
    }
  }

  /** The clean-up after a failure: drop the user message just sent (the
      original compares by reference; here it is known by its position),
      then every assistant message with empty content. */
  function Cleanup(messages: seq<UiMessage>, userIndex: nat): (r: seq<UiMessage>)
    requires userIndex < |messages|
    ensures r == Kept(messages[..userIndex]) + Kept(messages[userIndex + 1..])
  {
    KeptAppend(messages[..userIndex], messages[userIndex + 1..]);
    Kept(messages[..userIndex] + messages[userIndex + 1..])
  }

  /** The source as written, or with the repair that lets an `error` event
      reach the outer failure handler. */
  datatype Handling = AsWritten | Intended

  /** What the read loop maintains besides the buffer: the streamed text so
      far, the message list, the placeholder's index, and the error thrown
      out of the loop, if any. */
  datatype View = View(fullContent: string, messages: seq<UiMessage>, index: int, thrown: Option<string>)

  /** The reader: the unsplit tail of the stream, and the view. */
  datatype Reader = Reader(buffer: string, view: View)

  /** The placeholder is in range and shows exactly the streamed text. */
  predicate Shows(v: View)
  {
    0 <= v.index < |v.messages| && v.messages[v.index].content == v.fullContent
  }

  /** The frame prefix, dropped before parsing. */
  const DataPrefix: string := "data: "

  /** The message thrown for an `error` event that has none. */
  const ErrorEventFallback: string := "Error processing message"

  /** The handling of one parsed event. A `content` event extends the text
      and shows it in the placeholder; `end` sets the placeholder's
      timestamp; an `error` event throws. As written, that throw lands in the
      per-frame `catch`, which only logs, so nothing changes. */
  function HandleEvent(h: Handling, v: View, e: Event): (r: View)
    ensures |r.messages| == |v.messages| && r.index == v.index
    ensures forall j :: 0 <= j < |r.messages| && j != v.index ==> r.messages[j] == v.messages[j]
    ensures 0 <= v.index < |v.messages| ==> r.messages[v.index].role == v.messages[v.index].role
    ensures Shows(v) ==> Shows(r)
    ensures r.fullContent == v.fullContent + (if e.Content? then e.content else "")
    ensures e.Content? && 0 <= v.index < |v.messages| ==>
      r.messages[v.index] == v.messages[v.index].(content := r.fullContent)
    ensures e.End? && 0 <= v.index < |v.messages| ==>
      r.messages[v.index] == v.messages[v.index].(timestamp := Some(e.timestamp))
    ensures !e.Content? && !e.End? ==> r.messages == v.messages
    ensures r.thrown != v.thrown ==> h.Intended? && e.Error?
    ensures h.Intended? && e.Error? ==> r.thrown.Some? && r.thrown.value != ""
  {
    match e
    case Start(_) => v
    case Content(c) =>
      var full := v.fullContent + c;
      v.(fullContent := full, messages := SetContent(v.messages, v.index, full))
    case End(_, t) => v.(messages := SetTimestamp(v.messages, v.index, t))
    case Error(message, _) =>
      if h.AsWritten? then v
      else v.(thrown := Some(if message == "" then ErrorEventFallback else message))
  }

  /** One frame: only frames starting with "data: " are parsed, from the
      seventh character on; a parse failure is logged and skipped. */
  function HandleFrame(h: Handling, decode: string -> Option<Event>, v: View, frame: string): View
  {
    if !StartsWith(frame, DataPrefix) then v
    else
      match decode(frame[|DataPrefix|..])
      case None => v
      case Some(e) => HandleEvent(h, v, e)
  }

  /** The frames of one read, in order; a throw leaves the loop. */
  function HandleFrames(h: Handling, decode: string -> Option<Event>, v: View, frames: seq<string>): View
  {
    if |frames| == 0 then v
    else
      var prev := HandleFrames(h, decode, v, frames[..|frames| - 1]);
      if prev.thrown.Some? then prev else HandleFrame(h, decode, prev, frames[|frames| - 1])
  }

  /** One read: append the chunk, split, keep the last piece as the buffer,
      handle the complete frames. */
  function FeedChunk(h: Handling, decode: string -> Option<Event>, r: Reader, chunk: string): Reader
  {
    var pieces := Split(r.buffer + chunk);
    Reader(Rest(pieces), HandleFrames(h, decode, r.view, Frames(pieces)))
  }

  /** The whole read loop over the chunks the reader delivers. */
  function FeedAll(h: Handling, decode: string -> Option<Event>, r: Reader, chunks: seq<string>): Reader
  {
    if |chunks| == 0 then r
    else FeedChunk(h, decode, FeedAll(h, decode, r, chunks[..|chunks| - 1]), chunks[|chunks| - 1])
  }

  /** Handling frames in two batches is handling them all at once. */
  lemma {:induction false} HandleFramesAppend(h: Handling, decode: string -> Option<Event>, v: View,
                                              f: seq<string>, g: seq<string>)
    ensures HandleFrames(h, decode, v, f + g) == HandleFrames(h, decode, HandleFrames(h, decode, v, f), g)
    decreases |g|
  {
    if |g| == 0 {
      assert f + g == f;
    } else {
      var g' := g[..|g| - 1];
      assert (f + g)[..|f + g| - 1] == f + g';
      HandleFramesAppend(h, decode, v, f, g');
    }
  }

  /** Two reads in a row do what one read of both chunks does. */
  lemma FeedChunkAppend(h: Handling, decode: string -> Option<Event>, r: Reader, a: string, b: string)
    ensures FeedChunk(h, decode, FeedChunk(h, decode, r, a), b) == FeedChunk(h, decode, r, a + b)
  {
    var x := r.buffer + a;
    var p := Split(x);
    var q := Split(Rest(p) + b);
    SplitAppend(x, b);
    assert r.buffer + (a + b) == x + b;
    assert Split(x + b) == Frames(p) + q;
    PiecesAppend(Frames(p), q);
    HandleFramesAppend(h, decode, r.view, Frames(p), Frames(q));
  }

  lemma PiecesAppend(f: seq<string>, q: seq<string>)
    requires |q| > 0
    ensures Frames(f + q) == f + Frames(q) && Rest(f + q) == Rest(q)
  {
    assert (f + q)[..|f + q| - 1] == f + q[..|q| - 1];
  }

  /** However the stream is cut into chunks, the read loop ends where one
      read of the whole stream would: chunk boundaries do not matter. */
  lemma {:induction false} FeedAllIsOneRead(h: Handling, decode: string -> Option<Event>, r: Reader, chunks: seq<string>)
    requires Free(r.buffer)
    ensures FeedAll(h, decode, r, chunks) == FeedChunk(h, decode, r, Concat(chunks))
  {
    if |chunks| == 0 {
      assert r.buffer + "" == r.buffer;
      assert FindSep(r.buffer).None?;
    } else {
      var init := chunks[..|chunks| - 1];
      FeedAllIsOneRead(h, decode, r, init);
      FeedChunkAppend(h, decode, r, Concat(init), chunks[|chunks| - 1]);
    }
  }

  /** The server's frame for one event: "data: " and the event's JSON. */
  function FrameOf(enc: Event -> string, e: Event): string
  {
    DataPrefix + enc(e)
  }

  /** The server's byte stream for a run of events, each frame followed by
      a blank line. */
  function Wire(enc: Event -> string, events: seq<Event>): string
  {
    if |events| == 0 then ""
    else Wire(enc, events[..|events| - 1]) + FrameOf(enc, events[|events| - 1]) + "\n\n"
  }

  /** The frames of a run of events. */
  function FramesOf(enc: Event -> string, events: seq<Event>): (r: seq<string>)
    ensures |r| == |events|
    ensures forall i :: 0 <= i < |events| ==> r[i] == FrameOf(enc, events[i])
  {
    if |events| == 0 then [] else FramesOf(enc, events[..|events| - 1]) + [FrameOf(enc, events[|events| - 1])]
  }

  /** The encoder writes no line break (JSON text never holds a raw one). */
  ghost predicate SingleLine(enc: Event -> string, events: seq<Event>)
  {
    forall i :: 0 <= i < |events| ==> '\n' !in enc(events[i])
  }

  /** The parser reads back what the encoder wrote. */
  ghost predicate RoundTrips(enc: Event -> string, decode: string -> Option<Event>, events: seq<Event>)
  {
    forall i :: 0 <= i < |events| ==> decode(enc(events[i])) == Some(events[i])
  }

  /** Splitting the server's stream yields its frames, one per event, and
      an empty buffer. */
  lemma {:induction false} SplitWire(enc: Event -> string, events: seq<Event>)
    requires SingleLine(enc, events)
    ensures Split(Wire(enc, events)) == FramesOf(enc, events) + [""]
  {
    if |events| > 0 {
      var init, e := events[..|events| - 1], events[|events| - 1];
      assert SingleLine(enc, init) by {
        forall i | 0 <= i < |init| ensures '\n' !in enc(init[i]) {
          assert init[i] == events[i];
        }
      }
      SplitWire(enc, init);
      var frame := FrameOf(enc, e);
      assert '\n' !in frame by {
        assert '\n' !in enc(events[|events| - 1]);
        assert forall i :: 0 <= i < |DataPrefix| ==> frame[i] == DataPrefix[i];
      }
      SplitAppend(Wire(enc, init), frame + "\n\n");
      assert Wire(enc, events) == Wire(enc, init) + (frame + "\n\n");
      SplitFrame(frame, "");
      assert frame + "\n\n" + "" == "" + (frame + "\n\n");
    }
  }

  /** The events in order, as the handler sees them; a throw stops it. */
  function Replay(h: Handling, v: View, events: seq<Event>): (r: View)
    ensures |r.messages| == |v.messages| && r.index == v.index
    ensures forall j :: 0 <= j < |r.messages| && j != v.index ==> r.messages[j] == v.messages[j]
    ensures Shows(v) ==> Shows(r)
    ensures v.thrown.None? && r.thrown.Some? ==> r.thrown.value != ""
  {
    if |events| == 0 then v
    else
      var prev := Replay(h, v, events[..|events| - 1]);
      if prev.thrown.Some? then prev else HandleEvent(h, prev, events[|events| - 1])
  }

  /** Handling the frames of the wire is replaying its events. */
  lemma {:induction false} FramesReplay(h: Handling, enc: Event -> string, decode: string -> Option<Event>,
                                        v: View, events: seq<Event>)
    requires RoundTrips(enc, decode, events)
    ensures HandleFrames(h, decode, v, FramesOf(enc, events)) == Replay(h, v, events)
  {
    if |events| > 0 {
      var init, e := events[..|events| - 1], events[|events| - 1];
      assert RoundTrips(enc, decode, init) by {
        forall i | 0 <= i < |init| ensures decode(enc(init[i])) == Some(init[i]) {
          assert init[i] == events[i];
        }
      }
      FramesReplay(h, enc, decode, v, init);
      var fs := FramesOf(enc, events);
      assert fs[..|fs| - 1] == FramesOf(enc, init);
      var frame := FrameOf(enc, e);
      assert StartsWith(frame, DataPrefix);
      assert frame[|DataPrefix|..] == enc(e);
      assert decode(enc(e)) == Some(e);
    }
  }

  /** As written, no event stops the replay, and the streamed text is the
      concatenation of the content payloads. */
  lemma {:induction false} ReplayText(v: View, events: seq<Event>)
    requires v.thrown.None?
    ensures Replay(AsWritten, v, events).thrown.None?
    ensures Replay(AsWritten, v, events).fullContent == v.fullContent + StreamService.ContentText(events)
  {
    if |events| > 0 {
      var init, e := events[..|events| - 1], events[|events| - 1];
      ReplayText(v, init);
      var ps := StreamService.Payloads(init);
      var extra := if e.Content? then [e.content] else [];
      assert StreamService.Payloads(events) == ps + extra;
      if e.Content? {
        assert (ps + extra)[..|ps|] == ps;
      } else {
        assert ps + extra == ps;
      }
    }
  }

  /** With the repair, the replay agrees with the source on every run with
      no `error` event. */
  lemma {:induction false} ReplayAgrees(v: View, events: seq<Event>)
    requires v.thrown.None?
    requires forall i :: 0 <= i < |events| ==> !events[i].Error?
    ensures Replay(Intended, v, events) == Replay(AsWritten, v, events)
    ensures Replay(Intended, v, events).thrown.None?
  {
    if |events| > 0 {
      ReplayAgrees(v, events[..|events| - 1]);
    }
  }

  /** With the repair, an `error` event stops the replay with its message. */
  lemma {:induction false} ReplayStopsAtError(v: View, events: seq<Event>)
    requires v.thrown.None?
    requires |events| > 0 && events[|events| - 1].Error?
    ensures Replay(Intended, v, events).thrown.Some?
    ensures Replay(Intended, v, events).thrown.value != ""
  {
  }

  /** What `fetch` yields: it rejects, the status is not ok, there is no
      body, or the body delivers its chunks and then ends (`None`) or the
      read rejects (`Some(message)`). */
  datatype Response =
    | FetchFails(reason: string)
    | NotOk
    | NoBody
    | Body(chunks: seq<string>, failure: Option<string>)

  /** The widget's state: the messages, the input box, the loading flag and
      the error banner. */
  datatype ClientState = ClientState(messages: seq<UiMessage>, input: string, isLoading: bool, error: Option<string>)

  const FailedToSend: string := "Failed to send message"
  const NoReaderAvailable: string := "No response reader available"
  const TryAgain: string := "Failed to send message. Please try again."

  /** The error banner: the error's own message, or the fixed "try again"
      text when that message is empty. */
  function Banner(message: string): (r: string)
    ensures r != ""
    ensures message != "" ==> r == message
    ensures message == "" ==> r == TryAgain
  {
    if message == "" then TryAgain else message
  }

  /** The outer `catch`: show the error, clean the list, give the text back. */
  function Failed(messages: seq<UiMessage>, userIndex: nat, text: string, message: string): ClientState
    requires userIndex < |messages|
  {
    ClientState(Cleanup(messages, userIndex), text, false, Some(Banner(message)))
  }

  /** What a send leaves behind once the input was accepted: not loading;
      on success the input cleared and the list grown by the user message
      and the assistant message; on failure a non-empty error, the input
      restored, and the earlier messages that survive the filter followed
      at most by the assistant message, when it holds text. */
  ghost predicate SendOutcome(before: seq<UiMessage>, text: string, now: nat, r: ClientState)
  {
    && !r.isLoading
    && (r.error.None? ==>
          && r.input == ""
          && |r.messages| == |before| + 2
          && r.messages[..|before|] == before
          && r.messages[|before|] == UiMessage(User, text, Some(now))
          && r.messages[|before| + 1].role == Assistant)
    && (r.error.Some? ==>
          && r.error.value != ""
          && r.input == text
          && (|| r.messages == Kept(before)
              || (&& |r.messages| == |Kept(before)| + 1
                  && r.messages[..|Kept(before)|] == Kept(before)
                  && r.messages[|Kept(before)|].role == Assistant
                  && r.messages[|Kept(before)|].content != "")))
  }

  /** `sendMessage`, for the message in the input box at clock `now`:
      whitespace-only input does nothing; otherwise the trimmed text is sent. */
  function SendMessage(h: Handling, decode: string -> Option<Event>, st: ClientState, now: nat,
                       response: Response): (r: ClientState)
    ensures Trim(st.input) == "" ==> r == st
    ensures Trim(st.input) != "" ==> SendOutcome(st.messages, Trim(st.input), now, r)
    ensures Trim(st.input) != "" && !response.Body? ==>
      r.error.Some? && r.input == Trim(st.input) && r.messages == Kept(st.messages)
    ensures Trim(st.input) != "" && response.Body? && response.failure.Some? ==>
      r.error.Some? && r.input == Trim(st.input)
    ensures Trim(st.input) != "" && response.Body? && r.error.Some? ==>
      var v := FeedAll(h, decode, Start(st.messages, Trim(st.input), now), response.chunks).view;
      |st.messages| < |v.messages| && r.messages == Cleanup(v.messages, |st.messages|)
  {
    var text := Trim(st.input);
    if text == "" then st else Send(h, decode, st.messages, text, now, response)
  }

  /** Everything after the guard: the user message is shown, then the
      request either fails before a body is read or is streamed. */
  function Send(h: Handling, decode: string -> Option<Event>, before: seq<UiMessage>, text: string, now: nat,
                response: Response): (r: ClientState)
    ensures SendOutcome(before, text, now, r)
    ensures response.FetchFails? ==> r == ClientState(Kept(before), text, false, Some(Banner(response.reason)))
    ensures response.NotOk? ==> r == ClientState(Kept(before), text, false, Some(FailedToSend))
    ensures response.NoBody? ==> r == ClientState(Kept(before), text, false, Some(NoReaderAvailable))
    ensures response.Body? && response.failure.Some? ==> r.error.Some? && r.input == text
    ensures response.Body? && r.error.Some? ==>
      var v := FeedAll(h, decode, Start(before, text, now), response.chunks).view;
      |before| < |v.messages| && r.messages == Cleanup(v.messages, |before|)
  {
    var k := |before|;
    var sent := before + [UiMessage(User, text, Some(now))];
    assert sent[..k] == before && sent[k + 1..] == [];
    assert Cleanup(sent, k) == Kept(before) by { assert Kept(before) + [] == Kept(before); }
    match response
    case FetchFails(reason) => Failed(sent, k, text, reason)
    case NotOk => Failed(sent, k, text, FailedToSend)
    case NoBody => Failed(sent, k, text, NoReaderAvailable)
    case Body(chunks, failure) => Stream(h, decode, before, text, now, chunks, failure)
  }

  /** The reader when the body arrives: an empty buffer, no text yet, and
      the list grown by the user message and the empty assistant
      placeholder, which the view points at. */
  function Start(before: seq<UiMessage>, text: string, now: nat): Reader
  {
    var shown := before + [UiMessage(User, text, Some(now)), UiMessage(Assistant, "", Some(now))];
    Reader("", View("", shown, |before| + 1, None))
  }

  /** The body is read: a placeholder assistant message is added and the
      read loop fills it; a throw out of the loop or a failed read ends in
      the outer `catch`. */
  function Stream(h: Handling, decode: string -> Option<Event>, before: seq<UiMessage>, text: string, now: nat,
                  chunks: seq<string>, failure: Option<string>): (r: ClientState)
    ensures SendOutcome(before, text, now, r)
    ensures failure.Some? ==> r.error.Some? && r.input == text
    ensures FeedAll(h, decode, Start(before, text, now), chunks).view.thrown.None? && failure.Some? ==>
      r.error == Some(Banner(failure.value))
    ensures var v := FeedAll(h, decode, Start(before, text, now), chunks).view;
      r.error.Some? ==> |before| < |v.messages| && r.messages == Cleanup(v.messages, |before|)
  {
    var k := |before|;
    var start := Start(before, text, now);
    var v := FeedAll(h, decode, start, chunks).view;
    FeedAllKeepsList(h, decode, start, chunks);
    assert v.messages[..k] == before by {
      assert forall j :: 0 <= j < k ==> v.messages[j] == start.view.messages[j];
    }
    if v.thrown.Some? || failure.Some? then
      var message := if v.thrown.Some? then v.thrown.value else failure.value;
      AfterFailure(before, v.messages, k);
      Failed(v.messages, k, text, message)
    else
      ClientState(v.messages, "", false, None)
  }

  /** The read loop only ever rewrites the placeholder. */
  lemma {:induction false} FeedAllKeepsList(h: Handling, decode: string -> Option<Event>, r: Reader, chunks: seq<string>)
    ensures var v := FeedAll(h, decode, r, chunks).view;
      && |v.messages| == |r.view.messages| && v.index == r.view.index
      && (forall j :: 0 <= j < |v.messages| && j != r.view.index ==> v.messages[j] == r.view.messages[j])
      && (0 <= v.index < |v.messages| ==> v.messages[v.index].role == r.view.messages[v.index].role)
  {
    if |chunks| > 0 {
      var init := chunks[..|chunks| - 1];
      FeedAllKeepsList(h, decode, r, init);
      var prev := FeedAll(h, decode, r, init);
      var pieces := Split(prev.buffer + chunks[|chunks| - 1]);
      HandleFramesKeepList(h, decode, prev.view, Frames(pieces));
    }
  }

  lemma {:induction false} HandleFramesKeepList(h: Handling, decode: string -> Option<Event>, v: View, frames: seq<string>)
    ensures var w := HandleFrames(h, decode, v, frames);
      && |w.messages| == |v.messages| && w.index == v.index
      && (forall j :: 0 <= j < |w.messages| && j != v.index ==> w.messages[j] == v.messages[j])
      && (0 <= v.index < |v.messages| ==> w.messages[v.index].role == v.messages[v.index].role)
  {
    if |frames| > 0 {
      HandleFramesKeepList(h, decode, v, frames[..|frames| - 1]);
    }
  }

  /** The clean-up after a failed stream leaves the earlier messages that
      survive the filter, then the placeholder if it holds text. */
  lemma AfterFailure(before: seq<UiMessage>, streamed: seq<UiMessage>, k: nat)
    requires k == |before| && |streamed| == k + 2
    requires streamed[..k] == before && streamed[k + 1].role == Assistant
    ensures var r := Cleanup(streamed, k);
      || r == Kept(before)
      || (&& |r| == |Kept(before)| + 1
          && r[..|Kept(before)|] == Kept(before)
          && r[|Kept(before)|].role == Assistant
          && r[|Kept(before)|].content != "")
  {
    var tail := streamed[k + 1..];
    assert tail == [streamed[k + 1]];
    assert tail[..0] == [];
    var kt := Kept(tail);
    assert (Kept(before) + kt)[..|Kept(before)|] == Kept(before);
  }

  /** Reading the server's stream, cut into chunks anywhere, handles its
      events in order. */
  lemma ReadsWire(h: Handling, enc: Event -> string, decode: string -> Option<Event>, start: Reader,
                  events: seq<Event>, chunks: seq<string>)
    requires start.buffer == ""
    requires SingleLine(enc, events) && RoundTrips(enc, decode, events)
    requires Concat(chunks) == Wire(enc, events)
    ensures FeedAll(h, decode, start, chunks).view == Replay(h, start.view, events)
  {
    assert Free(start.buffer);
    FeedAllIsOneRead(h, decode, start, chunks);
    SplitWire(enc, events);
    assert start.buffer + Concat(chunks) == Wire(enc, events);
    assert Frames(FramesOf(enc, events) + [""]) == FramesOf(enc, events);
    FramesReplay(h, enc, decode, start.view, events);
  }

  /** As written, a fully read stream leaves no error, and the assistant
      message shows the concatenation of the content payloads. */
  lemma ClientShowsStreamedText(enc: Event -> string, decode: string -> Option<Event>, st: ClientState, now: nat,
                                events: seq<Event>, chunks: seq<string>)
    requires Trim(st.input) != ""
    requires SingleLine(enc, events) && RoundTrips(enc, decode, events)
    requires Concat(chunks) == Wire(enc, events)
    ensures var r := SendMessage(AsWritten, decode, st, now, Body(chunks, None));
      && r.error.None?
      && r.messages[|st.messages| + 1].content == StreamService.ContentText(events)
  {
    var text := Trim(st.input);
    var start := Start(st.messages, text, now);
    assert Shows(start.view);
    ReadsWire(AsWritten, enc, decode, start, events, chunks);
    ReplayText(start.view, events);
    var v := FeedAll(AsWritten, decode, start, chunks).view;
    assert Shows(v) && v.index == |st.messages| + 1;
    QuietStream(AsWritten, decode, st.messages, text, now, chunks);
    SendStreams(AsWritten, decode, st, now, chunks, None);
  }

  /** End to end: when the server's stream completes, the client ends up
      showing, as the assistant's reply, exactly the text the server saved,
      after the user message holding the text the server stored. */
  lemma ClientShowsSavedReply(h: Handling, backend: ReplyService.Backend, s: MessageStore.Store, id: string,
                              tUser: nat, tReply: nat, faults: ReplyService.Faults,
                              provider: seq<ReplyService.ChatTurn> -> StreamService.Upstream,
                              enc: Event -> string, decode: string -> Option<Event>, st: ClientState, now: nat,
                              chunks: seq<string>)
    requires Trim(st.input) != ""
    requires var run := StreamService.ProcessMessageStream(backend, s, id, Trim(st.input), tUser, tReply, faults, provider);
      && StreamService.Completed(run.events)
      && SingleLine(enc, run.events) && RoundTrips(enc, decode, run.events)
      && Concat(chunks) == Wire(enc, run.events)
    ensures var run := StreamService.ProcessMessageStream(backend, s, id, Trim(st.input), tUser, tReply, faults, provider);
      var r := SendMessage(h, decode, st, now, Body(chunks, None));
      && r.error.None?
      && r.messages[|st.messages|] == UiMessage(User, run.store[|run.store| - 2].content, Some(now))
      && r.messages[|st.messages| + 1].content == run.store[|run.store| - 1].content
  {
    var run := StreamService.ProcessMessageStream(backend, s, id, Trim(st.input), tUser, tReply, faults, provider);
    ClientShowsStreamedText(enc, decode, st, now, run.events, chunks);
    CompletedHasNoError(run.events);
    IntendedAgreesWithoutErrors(enc, decode, st, now, run.events, chunks, None);
  }

  /** A well-formed stream that ends with `end` carries no `error` event. */
  lemma CompletedHasNoError(events: seq<Event>)
    requires StreamService.WellFormed(events) && StreamService.Completed(events)
    ensures forall i :: 0 <= i < |events| ==> !events[i].Error?
  {
  }

  /** As written, a stream that ends with an `error` event is reported to
      nobody: no error is shown, the input stays cleared, and the user
      message stays in the list followed by whatever text arrived. */
  lemma ErrorEventIsSwallowed(enc: Event -> string, decode: string -> Option<Event>, st: ClientState, now: nat,
                              events: seq<Event>, chunks: seq<string>)
    requires Trim(st.input) != ""
    requires SingleLine(enc, events) && RoundTrips(enc, decode, events)
    requires Concat(chunks) == Wire(enc, events)
    requires |events| > 0 && events[|events| - 1].Error?
    ensures var r := SendMessage(AsWritten, decode, st, now, Body(chunks, None));
      && r.error.None?
      && r.input == ""
      && r.messages[|st.messages|] == UiMessage(User, Trim(st.input), Some(now))
      && r.messages[|st.messages| + 1].content == StreamService.ContentText(events)
  {
    ClientShowsStreamedText(enc, decode, st, now, events, chunks);
  }

  /** Every server run that fails after the user message was stored ends
      with `error`; as written, the client reports none of them, and with
      the repair it reports each one. */
  lemma FailedRunsGoUnreported(backend: ReplyService.Backend, s: MessageStore.Store, id: string,
                               tUser: nat, tReply: nat, faults: ReplyService.Faults,
                               provider: seq<ReplyService.ChatTurn> -> StreamService.Upstream,
                               enc: Event -> string, decode: string -> Option<Event>, st: ClientState, now: nat,
                               chunks: seq<string>)
    requires Trim(st.input) != ""
    requires var run := StreamService.ProcessMessageStream(backend, s, id, Trim(st.input), tUser, tReply, faults, provider);
      && run.raised.None? && !StreamService.Completed(run.events)
      && SingleLine(enc, run.events) && RoundTrips(enc, decode, run.events)
      && Concat(chunks) == Wire(enc, run.events)
    ensures SendMessage(AsWritten, decode, st, now, Body(chunks, None)).error.None?
    ensures SendMessage(Intended, decode, st, now, Body(chunks, None)).error.Some?
  {
    var run := StreamService.ProcessMessageStream(backend, s, id, Trim(st.input), tUser, tReply, faults, provider);
    assert run.events[|run.events| - 1].Error?;
    ErrorEventIsSwallowed(enc, decode, st, now, run.events, chunks);
    IntendedReportsErrorEvent(enc, decode, st, now, run.events, chunks);
  }

  /** With the repair, an `error` event that ends the stream is reported:
      the banner shows it, the input gets the text back, and the list is
      cleaned up. */
  lemma IntendedReportsErrorEvent(enc: Event -> string, decode: string -> Option<Event>, st: ClientState, now: nat,
                                  events: seq<Event>, chunks: seq<string>)
    requires Trim(st.input) != ""
    requires SingleLine(enc, events) && RoundTrips(enc, decode, events)
    requires Concat(chunks) == Wire(enc, events)
    requires |events| > 0 && events[|events| - 1].Error?
    ensures var r := SendMessage(Intended, decode, st, now, Body(chunks, None));
      r.error.Some? && r.input == Trim(st.input)
  {
    var start := Start(st.messages, Trim(st.input), now);
    ReadsWire(Intended, enc, decode, start, events, chunks);
    ReplayStopsAtError(start.view, events);
    SendStreams(Intended, decode, st, now, chunks, None);
    ThrowIsReported(Intended, decode, st.messages, Trim(st.input), now, chunks, None);
  }

  /** A throw out of the read loop ends in the outer `catch`. */
  lemma ThrowIsReported(h: Handling, decode: string -> Option<Event>, before: seq<UiMessage>, text: string, now: nat,
                        chunks: seq<string>, failure: Option<string>)
    requires FeedAll(h, decode, Start(before, text, now), chunks).view.thrown.Some?
    ensures var v := FeedAll(h, decode, Start(before, text, now), chunks).view;
      && |before| < |v.messages|
      && Stream(h, decode, before, text, now, chunks, failure) == Failed(v.messages, |before|, text, v.thrown.value)
  {
    FeedAllKeepsList(h, decode, Start(before, text, now), chunks);
  }

  /** An accepted input with a body goes to the read loop. */
  lemma SendStreams(h: Handling, decode: string -> Option<Event>, st: ClientState, now: nat,
                    chunks: seq<string>, failure: Option<string>)
    requires Trim(st.input) != ""
    ensures SendMessage(h, decode, st, now, Body(chunks, failure))
         == Stream(h, decode, st.messages, Trim(st.input), now, chunks, failure)
  {
    SendReadsBody(h, decode, st.messages, Trim(st.input), now, chunks, failure);
  }

  /** The repair changes nothing for streams without an `error` event. */
  lemma IntendedAgreesWithoutErrors(enc: Event -> string, decode: string -> Option<Event>, st: ClientState, now: nat,
                                    events: seq<Event>, chunks: seq<string>, failure: Option<string>)
    requires SingleLine(enc, events) && RoundTrips(enc, decode, events)
    requires Concat(chunks) == Wire(enc, events)
    requires forall i :: 0 <= i < |events| ==> !events[i].Error?
    ensures SendMessage(Intended, decode, st, now, Body(chunks, failure))
         == SendMessage(AsWritten, decode, st, now, Body(chunks, failure))
  {
    var text := Trim(st.input);
    if text != "" {
      var start := Start(st.messages, text, now);
      ReadsWire(Intended, enc, decode, start, events, chunks);
      ReadsWire(AsWritten, enc, decode, start, events, chunks);
      ReplayAgrees(start.view, events);
      SameViewSameSend(decode, st.messages, text, now, chunks, failure);
      SendStreams(Intended, decode, st, now, chunks, failure);
      SendStreams(AsWritten, decode, st, now, chunks, failure);
    }
  }

  lemma SendReadsBody(h: Handling, decode: string -> Option<Event>, before: seq<UiMessage>, text: string, now: nat,
                      chunks: seq<string>, failure: Option<string>)
    ensures Send(h, decode, before, text, now, Body(chunks, failure))
         == Stream(h, decode, before, text, now, chunks, failure)
  {
  }

  lemma SameViewSameSend(decode: string -> Option<Event>, before: seq<UiMessage>, text: string, now: nat,
                         chunks: seq<string>, failure: Option<string>)
    requires FeedAll(Intended, decode, Start(before, text, now), chunks).view
          == FeedAll(AsWritten, decode, Start(before, text, now), chunks).view
    ensures Stream(Intended, decode, before, text, now, chunks, failure)
         == Stream(AsWritten, decode, before, text, now, chunks, failure)
  {
  }

  /** The lone `error` event a failed NestJS request sends: as written, the
      client shows no error, clears the input and leaves an empty assistant
      message after the user's; with the repair it shows the apology, gives
      the text back and removes both messages. */
  lemma LoneErrorEvent(enc: Event -> string, decode: string -> Option<Event>, st: ClientState, now: nat,
                       reason: string, chunks: seq<string>)
    requires Trim(st.input) != ""
    requires var e := StreamService.Error(ReplyService.ErrorApology, reason);
      '\n' !in enc(e) && decode(enc(e)) == Some(e)
    requires Concat(chunks) == Wire(enc, [StreamService.Error(ReplyService.ErrorApology, reason)])
    ensures var r := SendMessage(AsWritten, decode, st, now, Body(chunks, None));
      && r.error.None? && r.input == ""
      && r.messages == st.messages + [UiMessage(User, Trim(st.input), Some(now)), UiMessage(Assistant, "", Some(now))]
    ensures var r := SendMessage(Intended, decode, st, now, Body(chunks, None));
      && r.error == Some(ReplyService.ErrorApology) && r.input == Trim(st.input)
      && r.messages == Kept(st.messages)
  {
    LoneErrorAsWritten(enc, decode, st, now, reason, chunks);
    LoneErrorIntended(enc, decode, st, now, reason, chunks);
  }

  lemma LoneErrorAsWritten(enc: Event -> string, decode: string -> Option<Event>, st: ClientState, now: nat,
                           reason: string, chunks: seq<string>)
    requires Trim(st.input) != ""
    requires var e := StreamService.Error(ReplyService.ErrorApology, reason);
      '\n' !in enc(e) && decode(enc(e)) == Some(e)
    requires Concat(chunks) == Wire(enc, [StreamService.Error(ReplyService.ErrorApology, reason)])
    ensures var r := SendMessage(AsWritten, decode, st, now, Body(chunks, None));
      && r.error.None? && r.input == ""
      && r.messages == st.messages + [UiMessage(User, Trim(st.input), Some(now)), UiMessage(Assistant, "", Some(now))]
  {
    var text := Trim(st.input);
    var start := Start(st.messages, text, now);
    LoneErrorRead(AsWritten, enc, decode, start, reason, chunks);
    QuietStream(AsWritten, decode, st.messages, text, now, chunks);
    SendStreams(AsWritten, decode, st, now, chunks, None);
  }

  lemma LoneErrorIntended(enc: Event -> string, decode: string -> Option<Event>, st: ClientState, now: nat,
                          reason: string, chunks: seq<string>)
    requires Trim(st.input) != ""
    requires var e := StreamService.Error(ReplyService.ErrorApology, reason);
      '\n' !in enc(e) && decode(enc(e)) == Some(e)
    requires Concat(chunks) == Wire(enc, [StreamService.Error(ReplyService.ErrorApology, reason)])
    ensures var r := SendMessage(Intended, decode, st, now, Body(chunks, None));
      && r.error == Some(ReplyService.ErrorApology) && r.input == Trim(st.input)
      && r.messages == Kept(st.messages)
  {
    var text := Trim(st.input);
    var start := Start(st.messages, text, now);
    LoneErrorRead(Intended, enc, decode, start, reason, chunks);
    assert FeedAll(Intended, decode, start, chunks).view
        == start.view.(thrown := Some(ReplyService.ErrorApology));
    SendStreams(Intended, decode, st, now, chunks, None);
    ThrowIsReported(Intended, decode, st.messages, text, now, chunks, None);
    CleanupAfterNothing(st.messages, text, now);
  }

  /** Reading a body that carries one error event handles that event alone. */
  lemma LoneErrorRead(h: Handling, enc: Event -> string, decode: string -> Option<Event>, start: Reader,
                      reason: string, chunks: seq<string>)
    requires start.buffer == "" && start.view.thrown.None?
    requires var e := StreamService.Error(ReplyService.ErrorApology, reason);
      '\n' !in enc(e) && decode(enc(e)) == Some(e)
    requires Concat(chunks) == Wire(enc, [StreamService.Error(ReplyService.ErrorApology, reason)])
    ensures FeedAll(h, decode, start, chunks).view
         == HandleEvent(h, start.view, StreamService.Error(ReplyService.ErrorApology, reason))
  {
    var events := [StreamService.Error(ReplyService.ErrorApology, reason)];
    assert SingleLine(enc, events) && RoundTrips(enc, decode, events);
    ReadsWire(h, enc, decode, start, events, chunks);
    assert events[..0] == [];
  }

  /** A read loop that throws nothing and a body that ends cleanly leave the
      list as the loop left it, with the input cleared. */
  lemma QuietStream(h: Handling, decode: string -> Option<Event>, before: seq<UiMessage>, text: string, now: nat,
                    chunks: seq<string>)
    requires FeedAll(h, decode, Start(before, text, now), chunks).view.thrown.None?
    ensures Stream(h, decode, before, text, now, chunks, None)
         == ClientState(FeedAll(h, decode, Start(before, text, now), chunks).view.messages, "", false, None)
  {
  }

  /** The clean-up of a list whose placeholder received no text leaves the
      earlier surviving messages. */
  lemma CleanupAfterNothing(before: seq<UiMessage>, text: string, now: nat)
    ensures Cleanup(Start(before, text, now).view.messages, |before|) == Kept(before)
  {
    var shown := Start(before, text, now).view.messages;
    assert shown[..|before|] == before;
    CleanupDropsLast(shown, before);
  }

  /** The clean-up of a list holding one message after the user's, which the
      filter drops, leaves the surviving messages before the user's. */
  lemma CleanupDropsLast(shown: seq<UiMessage>, before: seq<UiMessage>)
    requires |shown| == |before| + 2 && shown[..|before|] == before
    requires !Keep(shown[|before| + 1])
    ensures Cleanup(shown, |before|) == Kept(before)
  {
    var k := |before|;
    assert shown[k + 1..] == [shown[k + 1]];
    DroppedAlone(shown[k + 1]);
    assert Kept(before) + [] == Kept(before);
  }

  /** A message the filter drops leaves nothing on its own. */
  lemma DroppedAlone(m: UiMessage)
    requires !Keep(m)
    ensures Kept([m]) == []
  {
    assert [m][..0] == [];
  }
}

=== FILE: common.dfy ===
/** Small shared vocabulary: an optional value and the concatenation of
    string pieces, used by the store, the server and the client models. */
module Common {

  /** A value that may be absent (`null`/`undefined` in the original code). */
  datatype Option<+T> = None | Some(value: T)

  /** A computed value, or the message of the exception that replaced it. */
  datatype Result<+T> = Ok(value: T) | Err(error: string)

  /** The pieces joined end to end, in order. */
  function Concat(parts: seq<string>): (r: string)
  {
    if |parts| == 0 then "" else Concat(parts[..|parts| - 1]) + parts[|parts| - 1]
  }

  /** Concatenation distributes over sequence append. */
  lemma {:induction false} ConcatAppend(a: seq<string>, b: seq<string>)
    ensures Concat(a + b) == Concat(a) + Concat(b)
    decreases |b|
  {
    if |b| == 0 {
      assert a + b == a;
    } else {
      var b' := b[..|b| - 1];
      assert (a + b)[..|a + b| - 1] == a + b';
      ConcatAppend(a, b');
    }
  }

  /** `s` begins with `prefix`. */
  predicate StartsWith(s: string, prefix: string)
  {
    |prefix| <= |s| && s[..|prefix|] == prefix
  }
}

=== FILE: message_store.dfy ===
/** The message collection both backends keep: one flat, append-only
    sequence of messages, read back per conversation in creation order,
    deleted per conversation, and reduced to one summary row per
    conversation. The store is a value; every write returns a new store. */
module MessageStore {
  import opened Sorting

  /** The three roles the schema admits. */
  datatype Role = User | Assistant | System

  /** One stored message. `createdAt` is the write-time timestamp. */
  datatype Message = Message(conversationId: string, role: Role, content: string, createdAt: nat)

  /** The whole collection, in insertion order. */
  type Store = seq<Message>

  /** Sort key for history reads (`createdAt` ascending). */
  function CreatedAt(m: Message): int
  {
    m.createdAt
  }

  /** Every message of conversation `id`, in insertion order. */
  function InConversation(s: Store, id: string): (r: Store)
    ensures |r| <= |s|
  {
    if |s| == 0 then []
    else
      var init, last := s[..|s| - 1], s[|s| - 1];
      assert s == init + [last];
      InConversation(init, id) + (if last.conversationId == id then [last] else [])
  }

  /** The store without conversation `id`, in insertion order. */
  function Without(s: Store, id: string): (r: Store)
    ensures |r| <= |s|
  {
    if |s| == 0 then []
    else
      var init, last := s[..|s| - 1], s[|s| - 1];
      assert s == init + [last];
      Without(init, id) + (if last.conversationId == id then [] else [last])
  }

  /** Selecting conversation `id` keeps each of its messages as often as the
      store holds it, and nothing else. */
  lemma {:induction false} InConversationCounts(s: Store, id: string)
    ensures forall m :: multiset(InConversation(s, id))[m]
                     == if m.conversationId == id then multiset(s)[m] else 0
  {
    if |s| > 0 {
      var init, last := s[..|s| - 1], s[|s| - 1];
      assert s == init + [last];
      InConversationCounts(init, id);
    }
  }

  /** Removing conversation `id` keeps each other message as often as the
      store holds it, and none of `id`'s. */
  lemma {:induction false} WithoutCounts(s: Store, id: string)
    ensures forall m :: multiset(Without(s, id))[m]
                     == if m.conversationId == id then 0 else multiset(s)[m]
  {
    if |s| > 0 {
      var init, last := s[..|s| - 1], s[|s| - 1];
      assert s == init + [last];
      WithoutCounts(init, id);
    }
  }

  /** The number of stored messages of conversation `id`. */
  function Count(s: Store, id: string): nat
  {
    |InConversation(s, id)|
  }

  /** Some stored message belongs to conversation `id`. */
  ghost predicate Mentions(s: Store, id: string)
  {
    exists m :: m in s && m.conversationId == id
  }

  /** Selecting one conversation distributes over appending to the store. */
  lemma {:induction false} InConversationAppend(a: Store, b: Store, id: string)
    ensures InConversation(a + b, id) == InConversation(a, id) + InConversation(b, id)
    decreases |b|
  {
    if |b| == 0 {
      assert a + b == a;
    } else {
      var b', last := b[..|b| - 1], b[|b| - 1];
      assert (a + b)[..|a + b| - 1] == a + b';
      assert (a + b)[|a + b| - 1] == last;
      InConversationAppend(a, b', id);
      var tail := InConversation([last], id);
      assert [last][..0] == [];
      assert InConversation(a + b, id) == InConversation(a + b', id) + tail;
      assert InConversation(b, id) == InConversation(b', id) + tail;
      assert InConversation(a, id) + InConversation(b', id) + tail == InConversation(a, id) + (InConversation(b', id) + tail);
    }
  }

  /** Removing one conversation distributes over appending to the store, so
      the remaining messages keep their relative order. */
  lemma {:induction false} WithoutAppend(a: Store, b: Store, id: string)
    ensures Without(a + b, id) == Without(a, id) + Without(b, id)
    decreases |b|
  {
    if |b| == 0 {
      assert a + b == a;
    } else {
      var b', last := b[..|b| - 1], b[|b| - 1];
      assert (a + b)[..|a + b| - 1] == a + b';
      assert (a + b)[|a + b| - 1] == last;
      WithoutAppend(a, b', id);
      var tail := Without([last], id);
      assert [last][..0] == [];
      assert Without(a + b, id) == Without(a + b', id) + tail;
      assert Without(b, id) == Without(b', id) + tail;
      assert Without(a, id) + Without(b', id) + tail == Without(a, id) + (Without(b', id) + tail);
    }
  }

  /** A conversation has messages exactly when the store mentions it. */
  lemma CountPositive(s: Store, id: string)
    ensures Count(s, id) > 0 <==> Mentions(s, id)
  {
    var r := InConversation(s, id);
    InConversationCounts(s, id);
    if Count(s, id) > 0 {
      assert r[0] in multiset(r);
      assert r[0] in multiset(s);
    }
    if Mentions(s, id) {
      var m :| m in s && m.conversationId == id;
      assert m in multiset(s);
      assert m in multiset(r);
    }
  }

  /** `getConversationHistory` / `get_conversation_history`: the messages of
      conversation `id`, ascending by creation time (equal times in
      insertion order). */
  function History(s: Store, id: string): (r: Store)
    ensures forall i, j :: 0 <= i < j < |r| ==> r[i].createdAt <= r[j].createdAt
    ensures forall m :: multiset(r)[m] == if m.conversationId == id then multiset(s)[m] else 0
    ensures r == [] <==> !Mentions(s, id)
  {
    var r := SortBy(InConversation(s, id), CreatedAt);
    InConversationCounts(s, id);
    CountPositive(s, id);
    r
  }

  /** A message appended at a time no earlier than any stored message
      becomes the last entry of its conversation's history, after the
      history as it was. */
  lemma {:induction false} AppendedIsNewest(s: Store, m: Message)
    requires forall x :: x in s ==> x.createdAt <= m.createdAt
    ensures History(s + [m], m.conversationId) == History(s, m.conversationId) + [m]
  {
    var id := m.conversationId;
    var g := InConversation(s, id);
    InConversationCounts(s, id);
    InConversationAppend(s, [m], id);
    assert [m][..0] == [];
    assert InConversation([m], id) == [m];
    assert InConversation(s + [m], id) == g + [m];
    forall y | y in g ensures CreatedAt(y) <= CreatedAt(m) {
      assert y in multiset(g);
    }
    SortAppendMaximal(g, m, CreatedAt);
  }

  /** The result of `deleteMany({conversationId})`: the remaining store and
      the number of messages removed. */
  datatype Deletion = Deletion(store: Store, deletedCount: nat)

  /** `deleteConversation` / `delete_conversation` at the store: remove every
      message of conversation `id` and report how many went. */
  function DeleteConversation(s: Store, id: string): (d: Deletion)
    ensures d.deletedCount + |d.store| == |s|
    ensures d.deletedCount == |History(s, id)|
    ensures forall m :: multiset(d.store)[m] == if m.conversationId == id then 0 else multiset(s)[m]
    ensures !Mentions(d.store, id)
  {
    var kept := Without(s, id);
    WithoutCounts(s, id);
    PartitionSize(s, id);
    assert !Mentions(kept, id) by {
      forall m | m in kept ensures m.conversationId != id {
        assert m in multiset(kept);
      }
    }
    Deletion(kept, Count(s, id))
  }

  /** Every message lands on exactly one side of the split by conversation. */
  lemma {:induction false} PartitionSize(s: Store, id: string)
    ensures Count(s, id) + |Without(s, id)| == |s|
  {
    if |s| > 0 {
      PartitionSize(s[..|s| - 1], id);
    }
  }

  /** `delete_conversation` in the Python backend: whether anything was removed. */
  function DeleteReportsRemoval(s: Store, id: string): (removed: bool)
    ensures removed <==> Mentions(s, id)
  {
    CountPositive(s, id);
    DeleteConversation(s, id).deletedCount > 0
  }

  /** Deleting twice is deleting once; the second delete removes nothing and
      the Python backend reports false for it. */
  lemma DeleteIdempotent(s: Store, id: string)
    ensures var once := DeleteConversation(s, id).store;
      DeleteConversation(once, id) == Deletion(once, 0)
      && !DeleteReportsRemoval(once, id)
  {
    var once := DeleteConversation(s, id).store;
    WithoutAbsent(once, id);
    CountPositive(once, id);
  }

  /** Removing a conversation the store does not mention changes nothing. */
  lemma {:induction false} WithoutAbsent(s: Store, id: string)
    requires !Mentions(s, id)
    ensures Without(s, id) == s
  {
    if |s| > 0 {
      var init := s[..|s| - 1];
      assert !Mentions(init, id) by {
        forall m | m in init ensures m.conversationId != id {
          assert m in s;
        }
      }
      WithoutAbsent(init, id);
      assert s[|s| - 1] in s;
      assert s == init + [s[|s| - 1]];
    }
  }

  /** Deleting one conversation leaves every other conversation's messages,
      and so its history, exactly as they were; its own history is empty. */
  lemma {:induction false} DeleteKeepsOthers(s: Store, id: string, other: string)
    ensures History(DeleteConversation(s, id).store, id) == []
    ensures other != id ==>
      InConversation(DeleteConversation(s, id).store, other) == InConversation(s, other)
    ensures other != id ==>
      History(DeleteConversation(s, id).store, other) == History(s, other)
  {
    if other != id {
      KeepOthers(s, id, other);
    }
  }

  lemma {:induction false} KeepOthers(s: Store, id: string, other: string)
    requires other != id
    ensures InConversation(Without(s, id), other) == InConversation(s, other)
  {
    if |s| > 0 {
      var init, last := s[..|s| - 1], s[|s| - 1];
      KeepOthers(init, id, other);
      var tail := if last.conversationId == id then [] else [last];
      InConversationAppend(Without(init, id), tail, other);
      assert [last][..0] == [];
    }
  }
}

=== FILE: reply_service.dfy ===
/** The blocking reply (`processMessage` in the NestJS backend,
    `process_message` in the FastAPI backend): save the user message, read
    the conversation back as context, ask the provider, then save and return
    the reply, or return an apology when the provider call fails.

    The provider and the store's failures are inputs: `provider` maps the
    context it is sent to its outcome, and `Faults` says which store call
    raises. Timestamps come from the caller's clock. */
module ReplyService {
  import opened Common
  import opened MessageStore

  /** The two implementations of the protocol. */
  datatype Backend = Nest | FastApi

  /** The instruction sent ahead of every conversation. */
  const SystemPrompt: string := "You are a helpful assistant. Be concise and friendly."

  /** The reply used when the provider returns no content. */
  const NoContentFallback: string := "Sorry, I could not generate a response."

  /** The user-facing text of every degraded reply and error event. */
  const ErrorApology: string := "Sorry, I encountered an error processing your request."

  /** Python's message for indexing an empty list (`choices[0]` with no choices). */
  const IndexErrorText: string := "list index out of range"

  /** One entry of the message list sent to the provider. */
  datatype ChatTurn = ChatTurn(role: Role, content: string)

  /** What a blocking completion call yields: an exception, a response
      without choices, or a first choice whose content may be empty (an
      empty string stands for a missing or null content). */
  datatype Completion = CompletionFails(reason: string) | NoChoices | Choice(content: string)

  /** Which store calls raise, and with what message. */
  datatype Faults = Faults(userSave: Option<string>, historyRead: Option<string>, replySave: Option<string>)

  /** No store call fails. */
  const NoFaults: Faults := Faults(None, None, None)

  /** The body the service returns: a reply with its timestamp, or the
      apology with the error detail. */
  datatype Reply =
    | Answered(message: string, conversationId: string, timestamp: nat)
    | Apologized(message: string, conversationId: string, error: string)

  /** The service call either returns (with the store it leaves) or raises. */
  datatype Served =
    | Returned(store: Store, reply: Reply)
    | Raised(store: Store, error: string)

  /** The user message as saved. */
  function UserMessage(id: string, text: string, t: nat): Message
  {
    Message(id, User, text, t)
  }

  /** The messages sent to the provider: the system prompt, then the role
      and content of every history message, in order. */
  function Context(history: seq<Message>): (turns: seq<ChatTurn>)
    ensures |turns| == |history| + 1
  {
    if |history| == 0 then [ChatTurn(System, SystemPrompt)]
    else Context(history[..|history| - 1]) + [ChatTurn(history[|history| - 1].role, history[|history| - 1].content)]
  }

  /** The context is the system prompt followed by the history's turns, in order. */
  lemma {:induction false} ContextShape(history: seq<Message>)
    ensures Context(history)[0] == ChatTurn(System, SystemPrompt)
    ensures forall i :: 0 <= i < |history| ==>
      Context(history)[i + 1] == ChatTurn(history[i].role, history[i].content)
  {
    if |history| > 0 {
      ContextShape(history[..|history| - 1]);
    }
  }

  /** The context sent for a message `text` in conversation `id`, once the
      user message is stored. */
  function ProviderContext(s: Store, id: string, text: string, tUser: nat): seq<ChatTurn>
  {
    Context(History(s + [UserMessage(id, text, tUser)], id))
  }

  /** When the clock has not gone backwards, the context is the system prompt,
      then the conversation as it was, then the new user message last. */
  lemma {:induction false} ContextEndsWithUserMessage(s: Store, id: string, text: string, tUser: nat)
    requires forall m :: m in s ==> m.createdAt <= tUser
    ensures ProviderContext(s, id, text, tUser)
         == Context(History(s, id)) + [ChatTurn(User, text)]
  {
    var u := UserMessage(id, text, tUser);
    assert u.conversationId == id;
    AppendedIsNewest(s, u);
    ContextSnoc(History(s, id), u);
  }

  /** One more history message adds its turn at the end of the context. */
  lemma ContextSnoc(h: seq<Message>, m: Message)
    ensures Context(h + [m]) == Context(h) + [ChatTurn(m.role, m.content)]
  {
    assert (h + [m])[..|h|] == h;
  }

  /** The part of the reply inside the `try`: the text to reply with, or the
      exception that replaces it. The NestJS code reads `choices[0]?.message?.content`
      and falls back on a missing choice; the Python code indexes `choices[0]`
      and raises on an empty list. */
  function Draft(backend: Backend, c: Completion): (r: Result<string>)
    ensures r.Ok? ==> r.value != ""
    ensures r.Ok? && r.value != NoContentFallback ==> c == Choice(r.value)
    ensures c.Choice? && c.content != "" ==> r == Ok(c.content)
    ensures r.Err? <==> c.CompletionFails? || (c.NoChoices? && backend.FastApi?)
  {
    match c
    case CompletionFails(reason) => Err(reason)
    case NoChoices => if backend.Nest? then Ok(NoContentFallback) else Err(IndexErrorText)
    case Choice(content) => if content == "" then Ok(NoContentFallback) else Ok(content)
  }

  /** A provider call that fails, with the user message saved and the history
      read, is answered with the apology carrying the failure's reason; only
      the user message was stored. */
  lemma ProviderFailureApologizes(backend: Backend, s: Store, id: string, text: string, tUser: nat, tReply: nat,
                                  faults: Faults, provider: seq<ChatTurn> -> Completion, reason: string)
    requires faults.userSave.None? && faults.historyRead.None?
    requires provider(ProviderContext(s, id, text, tUser)) == CompletionFails(reason)
    ensures ProcessMessage(backend, s, id, text, tUser, tReply, faults, provider)
         == Returned(s + [UserMessage(id, text, tUser)], Apologized(ErrorApology, id, reason))
  {
    assert ProcessMessage(backend, s, id, text, tUser, tReply, faults, provider)
        == Respond(backend, s, id, text, tUser, tReply, faults, CompletionFails(reason));
  }

  /** The blocking reply. The user save and the history read sit before the
      `try` in both backends, so their failures propagate; the provider call
      and the reply save sit inside it, so their failures become an apology. */
  function ProcessMessage(backend: Backend, s: Store, id: string, text: string, tUser: nat, tReply: nat,
                          faults: Faults, provider: seq<ChatTurn> -> Completion): (r: Served)
    ensures r.Raised? <==> faults.userSave.Some? || faults.historyRead.Some?
    ensures faults.userSave.Some? ==> r == Raised(s, faults.userSave.value)
    ensures faults.userSave.None? && faults.historyRead.Some? ==>
      r == Raised(s + [UserMessage(id, text, tUser)], faults.historyRead.value)
    ensures faults.userSave.None? ==> |r.store| > |s| && r.store[..|s| + 1] == s + [UserMessage(id, text, tUser)]
    ensures r.Returned? && r.reply.Apologized? ==>
      r.store == s + [UserMessage(id, text, tUser)] && r.reply.message == ErrorApology
    ensures r.Returned? && r.reply.Answered? ==>
      && r.reply.message != ""
      && r.reply == Answered(r.reply.message, id, tReply)
      && r.store == s + [UserMessage(id, text, tUser), Message(id, Assistant, r.reply.message, tReply)]
    ensures r.Returned? && r.reply.Answered? && r.reply.message != NoContentFallback ==>
      provider(ProviderContext(s, id, text, tUser)) == Choice(r.reply.message)
    ensures r.Returned? && faults.replySave.None?
            && provider(ProviderContext(s, id, text, tUser)).Choice?
            && provider(ProviderContext(s, id, text, tUser)).content != "" ==>
      r.reply == Answered(provider(ProviderContext(s, id, text, tUser)).content, id, tReply)
    ensures var c := provider(ProviderContext(s, id, text, tUser));
      r.Returned? ==> (r.reply.Apologized? <==> Draft(backend, c).Err? || faults.replySave.Some?)
    ensures var c := provider(ProviderContext(s, id, text, tUser));
      r.Returned? && r.reply.Apologized? ==>
        && r.reply.conversationId == id
        && r.reply.error == if Draft(backend, c).Err? then Draft(backend, c).error else faults.replySave.value
    ensures var c := provider(ProviderContext(s, id, text, tUser));
      r.Returned? && faults.replySave.None? && (c == Choice("") || (c.NoChoices? && backend.Nest?)) ==>
        r.reply == Answered(NoContentFallback, id, tReply)
  {
    Respond(backend, s, id, text, tUser, tReply, faults, provider(ProviderContext(s, id, text, tUser)))
  }

  function Respond(backend: Backend, s: Store, id: string, text: string, tUser: nat, tReply: nat,
                   faults: Faults, c: Completion): (r: Served)
    ensures r.Raised? <==> faults.userSave.Some? || faults.historyRead.Some?
    ensures faults.userSave.Some? ==> r == Raised(s, faults.userSave.value)
    ensures faults.userSave.None? && faults.historyRead.Some? ==>
      r == Raised(s + [UserMessage(id, text, tUser)], faults.historyRead.value)
    ensures faults.userSave.None? ==> |r.store| > |s| && r.store[..|s| + 1] == s + [UserMessage(id, text, tUser)]
    ensures r.Returned? && r.reply.Apologized? ==>
      r.store == s + [UserMessage(id, text, tUser)] && r.reply.message == ErrorApology
    ensures r.Returned? && r.reply.Answered? ==>
      && r.reply.message != ""
      && r.reply == Answered(r.reply.message, id, tReply)
      && r.store == s + [UserMessage(id, text, tUser), Message(id, Assistant, r.reply.message, tReply)]
    ensures r.Returned? ==> (r.reply.Apologized? <==> Draft(backend, c).Err? || faults.replySave.Some?)
    ensures r.Returned? && r.reply.Apologized? ==>
      && r.reply.conversationId == id
      && r.reply.error == if Draft(backend, c).Err? then Draft(backend, c).error else faults.replySave.value
    ensures r.Returned? && r.reply.Answered? && r.reply.message != NoContentFallback ==> c == Choice(r.reply.message)
    ensures r.Returned? && faults.replySave.None? && c.Choice? && c.content != "" ==>
      r.reply == Answered(c.content, id, tReply)
    ensures r.Returned? && faults.replySave.None? && (c == Choice("") || (c.NoChoices? && backend.Nest?)) ==>
      r.reply == Answered(NoContentFallback, id, tReply)
  {
    if faults.userSave.Some? then Raised(s, faults.userSave.value)
    else
      var stored := s + [UserMessage(id, text, tUser)];
      assert stored[..|s| + 1] == stored;
      if faults.historyRead.Some? then Raised(stored, faults.historyRead.value)
      else
        var r := Answer(stored, id, tReply, faults.replySave, Draft(backend, c));
        assert r.reply.Answered? ==> r.store == s + [UserMessage(id, text, tUser), Message(id, Assistant, r.reply.message, tReply)] by {
          if r.reply.Answered? {
            assert stored + [Message(id, Assistant, r.reply.message, tReply)]
                == s + [UserMessage(id, text, tUser), Message(id, Assistant, r.reply.message, tReply)];
          }
        }
        r
  }

  /** Inside the `try`: an apology for a failed draft or a failed reply
      save, otherwise the saved and returned reply. */
  function Answer(stored: Store, id: string, tReply: nat, replyFault: Option<string>, draft: Result<string>): (r: Served)
    ensures r.Returned?
    ensures |r.store| >= |stored| && r.store[..|stored|] == stored
    ensures r.reply.Apologized? <==> draft.Err? || replyFault.Some?
    ensures r.reply.Apologized? ==> r.store == stored && r.reply.message == ErrorApology
    ensures r.reply.Apologized? ==>
      && r.reply.conversationId == id
      && r.reply.error == if draft.Err? then draft.error else replyFault.value
    ensures r.reply.Answered? ==>
      && draft == Ok(r.reply.message)
      && r.reply == Answered(r.reply.message, id, tReply)
      && r.store == stored + [Message(id, Assistant, r.reply.message, tReply)]
  {
    match draft
    case Err(e) => Returned(stored, Apologized(ErrorApology, id, e))
    case Ok(reply) =>
      if replyFault.Some? then Returned(stored, Apologized(ErrorApology, id, replyFault.value))
      else
        var saved := stored + [Message(id, Assistant, reply, tReply)];
        assert saved[..|stored|] == stored;
        Returned(saved, Answered(reply, id, tReply))
  }

  /** The two backends give the same blocking result unless the provider
      returns no choices; then NestJS answers with the fallback text and
      FastAPI apologizes with an index error. */
  lemma BackendsDifferOnlyOnMissingChoices(s: Store, id: string, text: string, tUser: nat, tReply: nat,
                                           faults: Faults, provider: seq<ChatTurn> -> Completion)
    ensures var c := provider(ProviderContext(s, id, text, tUser));
      var nest := ProcessMessage(Nest, s, id, text, tUser, tReply, faults, provider);
      var py := ProcessMessage(FastApi, s, id, text, tUser, tReply, faults, provider);
      && (c != NoChoices ==> nest == py)
      && (c == NoChoices && faults == NoFaults ==>
            && nest.Returned? && nest.reply == Answered(NoContentFallback, id, tReply)
            && py.Returned? && py.reply == Apologized(ErrorApology, id, IndexErrorText))
  {
    var c := provider(ProviderContext(s, id, text, tUser));
    var stored := s + [UserMessage(id, text, tUser)];
    if faults.userSave.None? && faults.historyRead.None? {
      assert ProcessMessage(Nest, s, id, text, tUser, tReply, faults, provider)
          == Answer(stored, id, tReply, faults.replySave, Draft(Nest, c));
      assert ProcessMessage(FastApi, s, id, text, tUser, tReply, faults, provider)
          == Answer(stored, id, tReply, faults.replySave, Draft(FastApi, c));
      if c != NoChoices {
        assert Draft(Nest, c) == Draft(FastApi, c);
      }
    }
  }

  /** Scenario: the first message of a fresh conversation leaves exactly the
      user message and the reply in its history, in that order. */
  lemma FirstExchange(id: string, text: string, tUser: nat, tReply: nat,
                      provider: seq<ChatTurn> -> Completion, backend: Backend)
    requires tUser <= tReply
    requires provider([ChatTurn(System, SystemPrompt), ChatTurn(User, text)]).Choice?
    ensures var r := ProcessMessage(backend, [], id, text, tUser, tReply, NoFaults, provider);
      && r.Returned? && r.reply.Answered?
      && History(r.store, id) == [UserMessage(id, text, tUser), Message(id, Assistant, r.reply.message, tReply)]
  {
    FirstContext(id, text, tUser);
    var c := provider([ChatTurn(System, SystemPrompt), ChatTurn(User, text)]);
    assert ProcessMessage(backend, [], id, text, tUser, tReply, NoFaults, provider)
        == Respond(backend, [], id, text, tUser, tReply, NoFaults, c);
    FirstRespond(backend, id, text, tUser, tReply, c);
  }

  lemma FirstRespond(backend: Backend, id: string, text: string, tUser: nat, tReply: nat, c: Completion)
    requires tUser <= tReply && c.Choice?
    ensures var r := Respond(backend, [], id, text, tUser, tReply, NoFaults, c);
      && r.Returned? && r.reply.Answered?
      && History(r.store, id) == [UserMessage(id, text, tUser), Message(id, Assistant, r.reply.message, tReply)]
  {
    var u := UserMessage(id, text, tUser);
    var r := Respond(backend, [], id, text, tUser, tReply, NoFaults, c);
    assert Draft(backend, c).Ok?;
    var a := Message(id, Assistant, r.reply.message, tReply);
    assert r.store == [] + [u, a];
    assert [] + [u, a] == [u, a];
    ExchangeHistory(u, a);
  }

  lemma FirstContext(id: string, text: string, tUser: nat)
    ensures ProviderContext([], id, text, tUser) == [ChatTurn(System, SystemPrompt), ChatTurn(User, text)]
  {
    var u := UserMessage(id, text, tUser);
    assert [] + [u] == [u];
    SingleHistory(u);
    assert [u][..0] == [];
    assert Context([u]) == Context([]) + [ChatTurn(User, text)];
  }

  lemma SingleHistory(m: Message)
    ensures History([m], m.conversationId) == [m]
  {
    assert [m][..0] == [];
  }

  lemma ExchangeHistory(u: Message, a: Message)
    requires u.conversationId == a.conversationId && u.createdAt <= a.createdAt
    ensures History([u, a], u.conversationId) == [u, a]
  {
    SingleHistory(u);
    assert [u] + [a] == [u, a];
    AppendedIsNewest([u], a);
  }
}

=== FILE: sidebar.dfy ===
/** The conversation sidebar's logic: the title shown for each row, and the
    local update of the list after a delete. */
module Sidebar {
  import opened MessageStore
  import opened Aggregation

  /** `truncateText`: texts up to `maxLength` characters are shown whole;
      longer ones are cut to `maxLength` characters and marked with "...". */
  function TruncateText(text: string, maxLength: nat): (r: string)
    ensures |r| <= maxLength + 3
    ensures |text| <= maxLength ==> r == text
    ensures |text| > maxLength ==> |r| == maxLength + 3 && r[..maxLength] == text[..maxLength] && r[maxLength..] == "..."
  {
    if |text| <= maxLength then text else text[..maxLength] + "..."
  }

  /** Truncating a title again changes nothing. */
  lemma TruncateIdempotent(text: string, maxLength: nat)
    ensures TruncateText(TruncateText(text, maxLength), maxLength) == TruncateText(text, maxLength)
  {
    var r := TruncateText(text, maxLength);
    if |text| > maxLength {
      assert r[..maxLength] + r[maxLength..] == r;
    }
  }

  /** The title length used by the sidebar. */
  const TitleLength: nat := 40

  /** `getConversationTitle`: the last message when the user sent it, the
      first message otherwise, truncated to 40 characters. */
  function Title(row: Summary): string
  {
    TruncateText(if row.lastMessageRole == User then row.lastMessage else row.firstMessage, TitleLength)
  }

  /** The title of a listed conversation read against its history: the
      newest message when the user sent it, otherwise the oldest, cut to 40
      characters. */
  lemma TitleFromHistory(s: Store, i: nat)
    requires i < |Conversations(s)|
    ensures var row := Conversations(s)[i];
      var h := History(s, row.conversationId);
      && |h| > 0
      && Title(row) == TruncateText(if h[|h| - 1].role == User then h[|h| - 1].content else h[0].content, TitleLength)
      && |Title(row)| <= TitleLength + 3
  {
    SummaryAgreesWithHistory(s, i);
  }

  /** The local list update after a delete: the rows of every other
      conversation, in their original order. */
  function RemoveRows(rows: seq<Summary>, id: string): (r: seq<Summary>)
    ensures |r| <= |rows|
    ensures forall k :: 0 <= k < |r| ==> r[k].conversationId != id
  {
    if |rows| == 0 then []
    else
      var last := rows[|rows| - 1];
      RemoveRows(rows[..|rows| - 1], id) + (if last.conversationId == id then [] else [last])
  }

  /** The rows kept are exactly the rows of other conversations. */
  lemma {:induction false} RemoveRowsMembers(rows: seq<Summary>, id: string)
    ensures forall row :: row in RemoveRows(rows, id) <==> row in rows && row.conversationId != id
  {
    if |rows| > 0 {
      var init := rows[..|rows| - 1];
      RemoveRowsMembers(init, id);
      assert rows == init + [rows[|rows| - 1]];
    }
  }

  /** The filter distributes over append, so the kept rows keep their order. */
  lemma {:induction false} RemoveRowsAppend(a: seq<Summary>, b: seq<Summary>, id: string)
    ensures RemoveRows(a + b, id) == RemoveRows(a, id) + RemoveRows(b, id)
    decreases |b|
  {
    if |b| == 0 {
      assert a + b == a;
    } else {
      var b' := b[..|b| - 1];
      assert (a + b)[..|a + b| - 1] == a + b';
      RemoveRowsAppend(a, b', id);
    }
  }

  /** What a delete click leaves: the list, whether a new conversation is
      started, and whether the failure alert was shown. */
  datatype DeleteResult = DeleteResult(rows: seq<Summary>, startsNew: bool, alerted: bool)

  /** `handleDeleteConversation`: nothing happens unless the user confirms;
      a failed request only alerts; a successful one filters the list and
      starts a new conversation when the current one was deleted. */
  function HandleDelete(rows: seq<Summary>, id: string, current: string, confirmed: bool, requestOk: bool): (r: DeleteResult)
    ensures r.startsNew <==> confirmed && requestOk && id == current
    ensures r.alerted <==> confirmed && !requestOk
    ensures !(confirmed && requestOk) ==> r.rows == rows
    ensures confirmed && requestOk ==> forall row :: row in r.rows <==> row in rows && row.conversationId != id
    ensures confirmed && requestOk ==> r.rows == RemoveRows(rows, id)
  {
    if !confirmed then DeleteResult(rows, false, false)
    else if !requestOk then DeleteResult(rows, false, true)
    else
      RemoveRowsMembers(rows, id);
      DeleteResult(RemoveRows(rows, id), id == current, false)
  }

  /** A row is listed exactly when it is the summary of a conversation the
      store mentions. */
  lemma ListedIffSummary(s: Store, row: Summary)
    ensures row in Conversations(s) <==>
      Mentions(s, row.conversationId) && row == SummaryOf(s, row.conversationId)
  {
    if row in Conversations(s) {
      ListedIsSummary(s, row);
    }
    if Mentions(s, row.conversationId) && row == SummaryOf(s, row.conversationId) {
      SummaryIsListed(s, row.conversationId);
    }
  }

  lemma ListedIsSummary(s: Store, row: Summary)
    requires row in Conversations(s)
    ensures Mentions(s, row.conversationId) && row == SummaryOf(s, row.conversationId)
  {
    var rows := Conversations(s);
    var i :| 0 <= i < |rows| && rows[i] == row;
    var id := RowOrigin(s, i);
    SummaryOfSummarizes(s, id);
  }

  lemma SummaryIsListed(s: Store, id: string)
    requires Mentions(s, id)
    ensures SummaryOf(s, id) in Conversations(s)
  {
    var rows := Conversations(s);
    var i :| 0 <= i < |rows| && rows[i].conversationId == id;
    var id' := RowOrigin(s, i);
    SummaryOfSummarizes(s, id');
  }

  /** The local update agrees with a reload: after the store deletes a
      conversation, the list the server would send holds exactly the rows
      the sidebar keeps. */
  lemma ReloadMatchesLocalDelete(s: Store, id: string)
    ensures forall row :: row in Conversations(DeleteConversation(s, id).store)
                      <==> row in RemoveRows(Conversations(s), id)
  {
    RemoveRowsMembers(Conversations(s), id);
    forall row
      ensures row in Conversations(DeleteConversation(s, id).store)
          <==> row in Conversations(s) && row.conversationId != id
    {
      RowAfterDelete(s, id, row);
    }
  }

  /** One row of the reloaded list: listed after the delete exactly when it
      was listed before and belongs to another conversation. */
  lemma RowAfterDelete(s: Store, id: string, row: Summary)
    ensures row in Conversations(DeleteConversation(s, id).store)
        <==> row in Conversations(s) && row.conversationId != id
  {
    var s' := DeleteConversation(s, id).store;
    var cid := row.conversationId;
    ListedIffSummary(s, row);
    ListedIffSummary(s', row);
    DeleteKeepsOthers(s, id, cid);
    CountPositive(s, cid);
    CountPositive(s', cid);
    if cid != id && Mentions(s, cid) {
      SameGroupSameSummary(s, s', cid);
    }
  }

  /** The summary row depends only on the conversation's group. */
  lemma SameGroupSameSummary(s: Store, t: Store, id: string)
    requires Mentions(s, id) && Mentions(t, id)
    requires InConversation(s, id) == InConversation(t, id)
    ensures SummaryOf(s, id) == SummaryOf(t, id)
  {
  }
}

=== FILE: sorting.dfy ===
/** A stable insertion sort by an integer key, and the maximum and minimum
    of a sequence by that key. The store sorts messages by creation time and
    the conversation list by latest activity with it; equal keys keep their
    relative (insertion) order. */
module Sorting {

  /** Keys never decrease from left to right. */
  ghost predicate SortedBy<T>(s: seq<T>, key: T -> int)
  {
    forall i, j :: 0 <= i < j < |s| ==> key(s[i]) <= key(s[j])
  }

  /** Insert `x` into `sorted`, after every element whose key is at most `x`'s. */
  function Insert<T>(sorted: seq<T>, x: T, key: T -> int): (r: seq<T>)
    requires SortedBy(sorted, key)
    ensures |r| == |sorted| + 1
    ensures multiset(r) == multiset(sorted) + multiset{x}
    ensures forall y :: y in r ==> y == x || y in sorted
    ensures SortedBy(r, key)
    decreases |sorted|
  {
    if |sorted| == 0 then [x]
    else
      var init, last := sorted[..|sorted| - 1], sorted[|sorted| - 1];
      if key(last) <= key(x) then
        assert sorted == init + [last];
        sorted + [x]
      else
        var r := Insert(init, x, key);
        InsertBelowLast(sorted, x, key, r);
        r + [last]
  }

  /** The step of `Insert` that puts `x` before the last element: the
      insertion into the front part, followed by the last element. */
  lemma InsertBelowLast<T>(sorted: seq<T>, x: T, key: T -> int, r: seq<T>)
    requires SortedBy(sorted, key) && |sorted| > 0
    requires key(x) < key(sorted[|sorted| - 1])
    requires multiset(r) == multiset(sorted[..|sorted| - 1]) + multiset{x}
    requires forall y :: y in r ==> y == x || y in sorted[..|sorted| - 1]
    requires SortedBy(r, key)
    ensures multiset(r + [sorted[|sorted| - 1]]) == multiset(sorted) + multiset{x}
    ensures forall y :: y in r + [sorted[|sorted| - 1]] ==> y == x || y in sorted
    ensures SortedBy(r + [sorted[|sorted| - 1]], key)
  {
    var init, last := sorted[..|sorted| - 1], sorted[|sorted| - 1];
    assert sorted == init + [last];
    assert forall y :: y in init ==> key(y) <= key(last);
    forall i | 0 <= i < |r| ensures key(r[i]) <= key(last) {
      assert r[i] in r;
    }
    SortedSnoc(r, last, key);
  }

  /** Appending an element whose key bounds every key keeps a sequence sorted. */
  lemma SortedSnoc<T>(s: seq<T>, x: T, key: T -> int)
    requires SortedBy(s, key)
    requires forall i :: 0 <= i < |s| ==> key(s[i]) <= key(x)
    ensures SortedBy(s + [x], key)
  {
  }

  /** Stable sort, ascending by key. */
  function SortBy<T>(s: seq<T>, key: T -> int): (r: seq<T>)
    ensures |r| == |s|
    ensures multiset(r) == multiset(s)
    ensures SortedBy(r, key)
  {
    if |s| == 0 then []
    else
      assert s == s[..|s| - 1] + [s[|s| - 1]];
      Insert(SortBy(s[..|s| - 1], key), s[|s| - 1], key)
  }

  /** The element with the greatest key; among equal keys, the later one. */
  function MaxLast<T>(s: seq<T>, key: T -> int): (r: T)
    requires |s| > 0
    ensures r in s
    ensures forall y :: y in s ==> key(y) <= key(r)
  {
    if |s| == 1 then s[0]
    else
      assert s == s[..|s| - 1] + [s[|s| - 1]];
      var p := MaxLast(s[..|s| - 1], key);
      if key(p) <= key(s[|s| - 1]) then s[|s| - 1] else p
  }

  /** The element with the least key; among equal keys, the earlier one. */
  function MinFirst<T>(s: seq<T>, key: T -> int): (r: T)
    requires |s| > 0
    ensures r in s
    ensures forall y :: y in s ==> key(r) <= key(y)
  {
    if |s| == 1 then s[0]
    else
      assert s == s[..|s| - 1] + [s[|s| - 1]];
      var p := MinFirst(s[..|s| - 1], key);
      if key(s[|s| - 1]) < key(p) then s[|s| - 1] else p
  }

  /** The front of an insertion: `x` goes first only when its key is
      strictly below the current front. */
  lemma {:induction false} InsertFront<T>(sorted: seq<T>, x: T, key: T -> int)
    requires SortedBy(sorted, key)
    requires |sorted| > 0
    ensures Insert(sorted, x, key)[0] == if key(x) < key(sorted[0]) then x else sorted[0]
    decreases |sorted|
  {
    var init, last := sorted[..|sorted| - 1], sorted[|sorted| - 1];
    if key(last) <= key(x) {
    } else if |init| == 0 {
    } else {
      InsertFront(init, x, key);
    }
  }

  /** The last element of the stable sort is the later of the maximal elements. */
  lemma {:induction false} SortLastIsMaxLast<T>(s: seq<T>, key: T -> int)
    requires |s| > 0
    ensures SortBy(s, key)[|s| - 1] == MaxLast(s, key)
  {
    if |s| > 1 {
      var init, x := s[..|s| - 1], s[|s| - 1];
      SortLastIsMaxLast(init, key);
      InsertLast(SortBy(init, key), x, key);
    }
  }

  /** The back of an insertion: `x` goes last exactly when no key exceeds
      its own at the current back. */
  lemma InsertLast<T>(sorted: seq<T>, x: T, key: T -> int)
    requires SortedBy(sorted, key)
    requires |sorted| > 0
    ensures Insert(sorted, x, key)[|sorted|] == if key(sorted[|sorted| - 1]) <= key(x) then x else sorted[|sorted| - 1]
  {
  }

  /** The first element of the stable sort is the earlier of the minimal elements. */
  lemma {:induction false} SortFirstIsMinFirst<T>(s: seq<T>, key: T -> int)
    requires |s| > 0
    ensures SortBy(s, key)[0] == MinFirst(s, key)
  {
    if |s| > 1 {
      var init := s[..|s| - 1];
      SortFirstIsMinFirst(init, key);
      InsertFront(SortBy(init, key), s[|s| - 1], key);
    }
  }

  /** An element whose key is at least every other key, appended last, stays
      last after sorting, and the rest is sorted as before. */
  lemma SortAppendMaximal<T>(s: seq<T>, x: T, key: T -> int)
    requires forall y :: y in s ==> key(y) <= key(x)
    ensures SortBy(s + [x], key) == SortBy(s, key) + [x]
  {
    var t := s + [x];
    assert t[..|t| - 1] == s;
    var sorted := SortBy(s, key);
    if |sorted| > 0 {
      var last := sorted[|sorted| - 1];
      assert last in multiset(sorted);
      assert last in s;
    }
  }

  /** The elements of a sequence with pairwise distinct elements each occur once. */
  lemma {:induction false} DistinctOccursOnce<T>(s: seq<T>, x: T)
    requires forall i, j :: 0 <= i < j < |s| ==> s[i] != s[j]
    ensures multiset(s)[x] == if x in s then 1 else 0
  {
    if |s| > 0 {
      var init := s[..|s| - 1];
      assert s == init + [s[|s| - 1]];
      DistinctOccursOnce(init, x);
      assert s[|s| - 1] !in init by {
        forall k | 0 <= k < |init| ensures init[k] != s[|s| - 1] {
          assert init[k] == s[k];
        }
      }
    }
  }

  /** Two equal entries at different positions make an element occur twice. */
  lemma TwoPositions<T>(s: seq<T>, i: nat, j: nat)
    requires i < j < |s| && s[i] == s[j]
    ensures multiset(s)[s[i]] >= 2
  {
    assert s == s[..j] + s[j..];
    assert s[i] in s[..j];
    assert s[j] in s[j..];
    assert multiset(s)[s[i]] == multiset(s[..j])[s[i]] + multiset(s[j..])[s[i]];
  }

  /** A rearrangement of a sequence whose keys are pairwise distinct still has
      pairwise distinct keys. */
  lemma PermutationKeepsDistinctKeys<T, K>(a: seq<T>, b: seq<T>, id: T -> K)
    requires multiset(a) == multiset(b)
    requires forall i, j :: 0 <= i < j < |a| ==> id(a[i]) != id(a[j])
    ensures forall i, j :: 0 <= i < j < |b| ==> id(b[i]) != id(b[j])
  {
    assert forall u, v :: 0 <= u < v < |a| ==> a[u] != a[v];
    forall i, j | 0 <= i < j < |b|
      ensures b[i] != b[j]
    {
      DistinctOccursOnce(a, b[i]);
      if b[i] == b[j] {
        TwoPositions(b, i, j);
      }
    }
    forall i, j | 0 <= i < j < |b|
      ensures id(b[i]) != id(b[j])
    {
      assert b[i] in multiset(a) && b[j] in multiset(a);
      var p :| 0 <= p < |a| && a[p] == b[i];
      var q :| 0 <= q < |a| && a[q] == b[j];
    }
  }

  /** The sum of `f` over the elements, in order. */
  function SumBy<T>(s: seq<T>, f: T -> int): int
  {
    if |s| == 0 then 0 else SumBy(s[..|s| - 1], f) + f(s[|s| - 1])
  }

  /** Summing distributes over append. */
  lemma {:induction false} SumByAppend<T>(a: seq<T>, b: seq<T>, f: T -> int)
    ensures SumBy(a + b, f) == SumBy(a, f) + SumBy(b, f)
    decreases |b|
  {
    if |b| > 0 {
      assert (a + b)[..|a + b| - 1] == a + b[..|b| - 1];
      SumByAppend(a, b[..|b| - 1], f);
    } else {
      assert a + b == a;
    }
  }

  /** A rearrangement does not change the sum. */
  lemma {:induction false} SumByPermutation<T>(a: seq<T>, b: seq<T>, f: T -> int)
    requires multiset(a) == multiset(b)
    ensures SumBy(a, f) == SumBy(b, f)
    decreases |a|
  {
    if |a| == 0 {
      assert |b| == |multiset(b)| == 0;
    } else {
      var x := a[|a| - 1];
      var init := a[..|a| - 1];
      assert a == init + [x];
      assert x in multiset(b);
      var k :| 0 <= k < |b| && b[k] == x;
      var rest := b[..k] + b[k + 1..];
      RemoveAt(b, k);
      SumByPermutation(init, rest, f);
      SumByRemoveAt(b, k, f);
    }
  }

  /** Removing the element at `k` removes one occurrence of it. */
  lemma RemoveAt<T>(b: seq<T>, k: nat)
    requires k < |b|
    ensures multiset(b[..k] + b[k + 1..]) == multiset(b) - multiset{b[k]}
  {
    assert b == b[..k] + [b[k]] + b[k + 1..];
  }

  /** Removing the element at `k` takes its value off the sum. */
  lemma SumByRemoveAt<T>(b: seq<T>, k: nat, f: T -> int)
    requires k < |b|
    ensures SumBy(b, f) == SumBy(b[..k] + b[k + 1..], f) + f(b[k])
  {
    var p, x, q := b[..k], b[k], b[k + 1..];
    assert b == p + ([x] + q);
    SumByAppend(p, [x] + q, f);
    SumByAppend([x], q, f);
    SumByAppend(p, q, f);
    assert SumBy([x], f) == f(x) by { assert [x][..0] == []; }
  }
}

=== FILE: sse_frames.dfy ===
/** The client's frame splitter for the server-sent event stream: the bytes
    read so far are kept in a buffer, the buffer is split on the blank line
    "\n\n" with JavaScript `String.prototype.split` semantics (leftmost,
    non-overlapping separators), every piece but the last is a complete
    frame, and the last piece stays in the buffer for the next read. */
module SseFrames {
  import opened Common

  /** A separator "\n\n" starts at position `j` of `s`. */
  predicate SepAt(s: string, j: int)
  {
    0 <= j && j + 2 <= |s| && s[j] == '\n' && s[j + 1] == '\n'
  }

  /** `s` contains no separator. */
  ghost predicate Free(s: string)
  {
    forall j :: !SepAt(s, j)
  }

  /** The position of the leftmost separator of `s`, if any. */
  function FindSep(s: string): (r: Option<nat>)
    ensures r.Some? ==> SepAt(s, r.value) && forall j :: 0 <= j < r.value ==> !SepAt(s, j)
    ensures r.None? ==> Free(s)
  {
    if |s| < 2 then None
    else if SepAt(s, 0) then Some(0)
    else
      match FindSep(s[1..])
      case None =>
        assert forall j :: SepAt(s, j) ==> j == 0 || SepAt(s[1..], j - 1);
        None
      case Some(i) =>
        assert forall j :: 0 < j <= i ==> (SepAt(s, j) ==> SepAt(s[1..], j - 1));
        Some(i + 1)
  }

  /** The pieces joined back with the separator between them. */
  function Join(pieces: seq<string>): string
    requires |pieces| > 0
  {
    if |pieces| == 1 then pieces[0] else pieces[0] + "\n\n" + Join(pieces[1..])
  }

  /** `buffer.split("\n\n")`: the text before the leftmost separator, then
      the split of the rest; a text without separator is one piece. */
  function Split(s: string): (r: seq<string>)
    ensures |r| > 0
    decreases |s|
  {
    match FindSep(s)
    case None => [s]
    case Some(i) => [s[..i]] + Split(s[i + 2..])
  }

  /** No piece of a split contains the separator. */
  lemma {:induction false} SplitPiecesFree(s: string)
    ensures forall k :: 0 <= k < |Split(s)| ==> Free(Split(s)[k])
    decreases |s|
  {
    match FindSep(s)
    case None =>
    case Some(i) =>
      var head := s[..i];
      assert Free(head) by {
        forall j ensures !SepAt(head, j) {
          if SepAt(head, j) { assert SepAt(s, j); }
        }
      }
      SplitPiecesFree(s[i + 2..]);
      SplitUnfold(s, i);
  }

  /** Joining the pieces of a split with the separator gives the text back. */
  lemma {:induction false} SplitJoin(s: string)
    ensures Join(Split(s)) == s
    decreases |s|
  {
    match FindSep(s)
    case None =>
    case Some(i) =>
      var rest := Split(s[i + 2..]);
      SplitJoin(s[i + 2..]);
      SplitUnfold(s, i);
      assert ([s[..i]] + rest)[1..] == rest;
      assert s == s[..i] + "\n\n" + s[i + 2..];
  }

  /** A leftmost separator stays leftmost when text is appended. */
  lemma {:induction false} FindSepExtend(s: string, t: string)
    requires FindSep(s).Some?
    ensures FindSep(s + t) == FindSep(s)
  {
    var i := FindSep(s).value;
    var st := s + t;
    assert SepAt(st, i);
    forall j | 0 <= j < i ensures !SepAt(st, j) {
      assert SepAt(st, j) ==> SepAt(s, j);
    }
    FindSepUnique(st, i);
  }

  /** A separator with none before it is the one `FindSep` reports. */
  lemma {:induction false} FindSepUnique(s: string, i: nat)
    requires SepAt(s, i)
    requires forall j :: 0 <= j < i ==> !SepAt(s, j)
    ensures FindSep(s) == Some(i)
  {
    if i > 0 {
      assert !SepAt(s, 0);
      assert SepAt(s[1..], i - 1);
      forall j | 0 <= j < i - 1 ensures !SepAt(s[1..], j) {
        assert SepAt(s[1..], j) ==> SepAt(s, j + 1);
      }
      FindSepUnique(s[1..], i - 1);
    }
  }

  /** Splitting more text re-splits only the last piece: the earlier pieces
      are already final. This is why keeping the last piece as the buffer
      and splitting buffer + next chunk gives the same frames as splitting
      the whole stream at once. */
  lemma {:induction false} SplitAppend(s: string, t: string)
    ensures Split(s + t) == Split(s)[..|Split(s)| - 1] + Split(Split(s)[|Split(s)| - 1] + t)
    decreases |s|
  {
    if FindSep(s).Some? {
      var i := FindSep(s).value;
      var a := s[i + 2..];
      FindSepExtend(s, t);
      assert (s + t)[i + 2..] == a + t;
      assert (s + t)[..i] == s[..i];
      SplitUnfold(s + t, i);
      SplitUnfold(s, i);
      SplitAppend(a, t);
      SplitAppendStep(Split(s), Split(s + t), s[..i], Split(a), Split(a + t), t);
    }
  }

  /** The sequence step of `SplitAppend`: a common first piece in front of
      both splits leaves the relation between them unchanged. */
  lemma SplitAppendStep(whole: seq<string>, wholeT: seq<string>, head: string,
                        rest: seq<string>, restT: seq<string>, t: string)
    requires |rest| > 0
    requires whole == [head] + rest && wholeT == [head] + restT
    requires restT == rest[..|rest| - 1] + Split(rest[|rest| - 1] + t)
    ensures wholeT == whole[..|whole| - 1] + Split(whole[|whole| - 1] + t)
  {
    assert whole[..|whole| - 1] == [head] + rest[..|rest| - 1];
    assert whole[|whole| - 1] == rest[|rest| - 1];
  }

  /** One step of the split: the text before the leftmost separator, then
      the split of the text after it. */
  lemma SplitUnfold(s: string, i: nat)
    requires FindSep(s) == Some(i)
    ensures Split(s) == [s[..i]] + Split(s[i + 2..])
  {
  }

  /** A frame without line breaks followed by the separator splits off as
      exactly one piece. */
  lemma SplitFrame(frame: string, rest: string)
    requires '\n' !in frame
    ensures Split(frame + "\n\n" + rest) == [frame] + Split(rest)
  {
    var s := frame + "\n\n" + rest;
    forall j | 0 <= j < |frame| ensures !SepAt(s, j) {
      assert s[j] == frame[j];
    }
    FindSepUnique(s, |frame|);
    assert s[..|frame|] == frame;
    assert s[|frame| + 2..] == rest;
  }

  /** The pieces that are complete frames: all but the last. */
  function Frames(pieces: seq<string>): seq<string>
    requires |pieces| > 0
  {
    pieces[..|pieces| - 1]
  }

  /** The piece kept as the buffer for the next read. */
  function Rest(pieces: seq<string>): string
    requires |pieces| > 0
  {
    pieces[|pieces| - 1]
  }

  /** After a split the kept buffer holds no separator, and the frames, the
      separators and the buffer give back the split text: with no complete
      frame the buffer is the whole text, otherwise
      join(frames) + "\n\n" + buffer is. */
  lemma {:induction false} SplitReassembles(s: string)
    ensures Free(Rest(Split(s)))
    ensures |Frames(Split(s))| == 0 ==> Rest(Split(s)) == s
    ensures |Frames(Split(s))| > 0 ==> Join(Frames(Split(s))) + "\n\n" + Rest(Split(s)) == s
  {
    SplitPiecesFree(s);
    SplitJoin(s);
    if |Split(s)| > 1 {
      JoinSnoc(Split(s));
    }
  }

  /** Joining distributes over the last piece. */
  lemma {:induction false} JoinSnoc(pieces: seq<string>)
    requires |pieces| > 1
    ensures Join(pieces) == Join(pieces[..|pieces| - 1]) + "\n\n" + pieces[|pieces| - 1]
  {
    var n := |pieces|;
    var init, tail := pieces[..n - 1], pieces[1..];
    if n == 2 {
      assert Join(tail) == pieces[1];
      assert Join(init) == pieces[0];
    } else {
      assert init[1..] == tail[..n - 2];
      JoinSnoc(tail);
      assert Join(init) == pieces[0] + "\n\n" + Join(tail[..n - 2]);
      assert Join(pieces) == pieces[0] + "\n\n" + Join(tail);
    }
  }
}

=== FILE: stream_service.dfy ===
/** The streamed reply (`processMessageStream` in the NestJS backend,
    `process_message_stream` in the FastAPI backend). It emits `start`, one
    `content` event per non-empty provider delta, and then `end` or `error`;
    the assistant message is saved only after the provider stream has been
    consumed, with the concatenation of the deltas.

    The two backends catch failures at different points. In NestJS the whole
    body sits inside the `try`, so every failure becomes an `error` event. In
    FastAPI the user save and the history read come before the `try`, so
    their failures raise out of the generator before it yields anything. */
module StreamService {
  import opened Common
  import opened MessageStore
  import opened ReplyService

  /** One chunk of the provider stream: a delta (an empty string stands for a
      missing or null delta content), or a chunk without choices. */
  datatype Chunk = Delta(content: string) | EmptyChoices

  /** The provider stream: creating it fails, or it delivers its chunks and
      then ends normally (`None`) or raises (`Some(reason)`). */
  datatype Upstream = OpenFails(reason: string) | Opened(chunks: seq<Chunk>, failure: Option<string>)

  /** The server-sent events, as values. */
  datatype Event =
    | Start(conversationId: string)
    | Content(content: string)
    | End(conversationId: string, timestamp: nat)
    | Error(message: string, error: string)

  /** What a streamed request leaves behind: the store, the events written,
      and the exception that escaped the generator, if any. */
  datatype StreamRun = StreamRun(store: Store, events: seq<Event>, raised: Option<string>)

  /** The payloads of the content events, in order. */
  function Payloads(events: seq<Event>): seq<string>
  {
    if |events| == 0 then []
    else
      var last := events[|events| - 1];
      Payloads(events[..|events| - 1]) + (if last.Content? then [last.content] else [])
  }

  /** The text the content events carry, joined in order. */
  function ContentText(events: seq<Event>): string
  {
    Concat(Payloads(events))
  }

  /** Event grammar: `error` alone, or `start · content* · (end | error)`. */
  ghost predicate WellFormed(events: seq<Event>)
  {
    || (|events| == 1 && events[0].Error?)
    || (&& |events| >= 2
        && events[0].Start?
        && (forall i :: 0 < i < |events| - 1 ==> events[i].Content?)
        && (events[|events| - 1].End? || events[|events| - 1].Error?))
  }

  /** The stream ended with `end`. */
  predicate Completed(events: seq<Event>)
  {
    |events| > 0 && events[|events| - 1].End?
  }

  /** The for-await loop over the provider chunks, up to a raise: the
      non-empty delta contents in order, and the exception that stopped the
      loop early. NestJS reads `choices[0]?.delta?.content || ""` and skips a
      chunk without choices; Python indexes `choices[0]` and raises. */
  datatype Relayed = Relayed(pieces: seq<string>, broke: Option<string>)

  function Relay(backend: Backend, chunks: seq<Chunk>): (r: Relayed)
    ensures forall i :: 0 <= i < |r.pieces| ==> r.pieces[i] != ""
    ensures r.broke.Some? ==> backend.FastApi? && EmptyChoices in chunks
    ensures (backend.Nest? || EmptyChoices !in chunks) ==> r == Relayed(NonEmptyDeltas(chunks), None)
  {
    if |chunks| == 0 then Relayed([], None)
    else
      match chunks[0]
      case Delta(c) =>
        var rest := Relay(backend, chunks[1..]);
        assert chunks == [chunks[0]] + chunks[1..];
        Relayed((if c == "" then [] else [c]) + rest.pieces, rest.broke)
      case EmptyChoices =>
        if backend.Nest? then Relay(backend, chunks[1..]) else Relayed([], Some(IndexErrorText))
  }

  /** Independent reference: the non-empty delta contents of the whole stream. */
  function NonEmptyDeltas(chunks: seq<Chunk>): seq<string>
  {
    if |chunks| == 0 then []
    else
      (if chunks[0].Delta? && chunks[0].content != "" then [chunks[0].content] else [])
      + NonEmptyDeltas(chunks[1..])
  }

  /** The concatenation of every delta of the stream, empty ones included. */
  function AllDeltas(chunks: seq<Chunk>): string
  {
    if |chunks| == 0 then ""
    else (if chunks[0].Delta? then chunks[0].content else "") + AllDeltas(chunks[1..])
  }

  /** Skipping empty deltas does not change the text. */
  lemma {:induction false} NonEmptyDeltasText(chunks: seq<Chunk>)
    ensures Concat(NonEmptyDeltas(chunks)) == AllDeltas(chunks)
  {
    if |chunks| > 0 {
      var head := if chunks[0].Delta? && chunks[0].content != "" then [chunks[0].content] else [];
      NonEmptyDeltasText(chunks[1..]);
      ConcatAppend(head, NonEmptyDeltas(chunks[1..]));
      assert head == [] ==> Concat(head) == "";
      assert head != [] ==> Concat(head) == head[0] by {
        if head != [] { assert head[..0] == []; }
      }
    }
  }

  /** A content event for each piece. */
  function ContentEvents(pieces: seq<string>): (events: seq<Event>)
    ensures |events| == |pieces|
    ensures forall i :: 0 <= i < |events| ==> events[i] == Content(pieces[i])
  {
    if |pieces| == 0 then [] else ContentEvents(pieces[..|pieces| - 1]) + [Content(pieces[|pieces| - 1])]
  }

  lemma {:induction false} ContentEventPayloads(pieces: seq<string>)
    ensures Payloads(ContentEvents(pieces)) == pieces
  {
    if |pieces| > 0 {
      var init := pieces[..|pieces| - 1];
      ContentEventPayloads(init);
      var es := ContentEvents(pieces);
      assert es[..|es| - 1] == ContentEvents(init);
      assert pieces == init + [pieces[|pieces| - 1]];
    }
  }

  /** A failure before the provider stream exists: NestJS reports it as a
      lone error event; FastAPI lets it escape the generator. */
  function EarlyFailure(backend: Backend, s: Store, reason: string): StreamRun
  {
    match backend
    case Nest => StreamRun(s, [Error(ErrorApology, reason)], None)
    case FastApi => StreamRun(s, [], Some(reason))
  }

  /** The streamed reply. */
  function ProcessMessageStream(backend: Backend, s: Store, id: string, text: string, tUser: nat, tReply: nat,
                                faults: Faults, provider: seq<ChatTurn> -> Upstream): (r: StreamRun)
    ensures r.raised.None? ==> WellFormed(r.events)
    ensures r.raised.Some? ==> r.events == [] && backend.FastApi?
    ensures r.raised.Some? <==> backend.FastApi? && (faults.userSave.Some? || faults.historyRead.Some?)
    ensures forall i :: 0 <= i < |r.events| ==> (r.events[i].Content? ==> r.events[i].content != "")
    ensures Completed(r.events) ==>
      && r.raised.None?
      && r.events[|r.events| - 1] == End(id, tReply)
      && r.store == s + [UserMessage(id, text, tUser), Message(id, Assistant, ContentText(r.events), tReply)]
    ensures !Completed(r.events) ==>
      r.store == if faults.userSave.Some? then s else s + [UserMessage(id, text, tUser)]
    ensures faults.userSave.Some? ==> r.store == s
  {
    StreamWith(backend, s, id, text, tUser, tReply, faults, provider(ProviderContext(s, id, text, tUser)))
  }

  /** The streamed reply, given what the provider answers for the context. */
  function StreamWith(backend: Backend, s: Store, id: string, text: string, tUser: nat, tReply: nat,
                      faults: Faults, upstream: Upstream): (r: StreamRun)
    ensures r.raised.None? ==> WellFormed(r.events)
    ensures r.raised.Some? ==> r.events == [] && backend.FastApi?
    ensures r.raised.Some? <==> backend.FastApi? && (faults.userSave.Some? || faults.historyRead.Some?)
    ensures forall i :: 0 <= i < |r.events| ==> (r.events[i].Content? ==> r.events[i].content != "")
    ensures Completed(r.events) ==>
      && r.raised.None?
      && r.events[|r.events| - 1] == End(id, tReply)
      && r.store == s + [UserMessage(id, text, tUser), Message(id, Assistant, ContentText(r.events), tReply)]
    ensures !Completed(r.events) ==>
      r.store == if faults.userSave.Some? then s else s + [UserMessage(id, text, tUser)]
    ensures faults.userSave.Some? ==> r.store == s
  {
    if faults.userSave.Some? then EarlyFailure(backend, s, faults.userSave.value)
    else
      var stored := s + [UserMessage(id, text, tUser)];
      if faults.historyRead.Some? then EarlyFailure(backend, stored, faults.historyRead.value)
      else
        var r := Streamed(backend, stored, id, tReply, faults.replySave, upstream);
        assert Completed(r.events) ==>
          r.store == s + [UserMessage(id, text, tUser), Message(id, Assistant, ContentText(r.events), tReply)] by {
          if Completed(r.events) {
            assert stored + [Message(id, Assistant, ContentText(r.events), tReply)]
                == s + [UserMessage(id, text, tUser), Message(id, Assistant, ContentText(r.events), tReply)];
          }
        }
        r
  }

  /** Everything from the provider call on; this part sits inside the `try`
      in both backends, so every failure here becomes an `error` event. */
  function Streamed(backend: Backend, stored: Store, id: string, tReply: nat,
                    replySave: Option<string>, upstream: Upstream): (r: StreamRun)
    ensures r.raised.None? && WellFormed(r.events)
    ensures forall i :: 0 <= i < |r.events| ==> (r.events[i].Content? ==> r.events[i].content != "")
    ensures upstream.OpenFails? ==> r.events == [Error(ErrorApology, upstream.reason)]
    ensures upstream.Opened? ==>
      && |r.events| >= 2 && r.events[0] == Start(id)
      && Payloads(r.events) == Relay(backend, upstream.chunks).pieces
    ensures Completed(r.events) ==>
      && r.events[|r.events| - 1] == End(id, tReply)
      && r.store == stored + [Message(id, Assistant, ContentText(r.events), tReply)]
    ensures !Completed(r.events) ==> r.store == stored
  {
    match upstream
    case OpenFails(reason) => StreamRun(stored, [Error(ErrorApology, reason)], None)
    case Opened(chunks, failure) =>
      var relayed := Relay(backend, chunks);
      var stop := if relayed.broke.Some? then relayed.broke else failure;
      Finish(stored, id, tReply, relayed.pieces, stop, replySave)
  }

  /** The part after the provider stream is open: `start`, a content event
      per piece, then the assistant save and `end`, or `error` for the first
      failure (the stream's own, then the save's) with nothing saved. */
  function Finish(stored: Store, id: string, tReply: nat, pieces: seq<string>,
                  stop: Option<string>, replySave: Option<string>): (r: StreamRun)
    requires forall i :: 0 <= i < |pieces| ==> pieces[i] != ""
    ensures r.raised.None? && WellFormed(r.events)
    ensures forall i :: 0 <= i < |r.events| ==> (r.events[i].Content? ==> r.events[i].content != "")
    ensures r.events[0] == Start(id)
    ensures Payloads(r.events) == pieces
    ensures Completed(r.events) <==> stop.None? && replySave.None?
    ensures !Completed(r.events) ==>
      r.events[|r.events| - 1] == Error(ErrorApology, if stop.Some? then stop.value else replySave.value)
    ensures Completed(r.events) ==>
      && r.events[|r.events| - 1] == End(id, tReply)
      && r.store == stored + [Message(id, Assistant, Concat(pieces), tReply)]
    ensures !Completed(r.events) ==> r.store == stored
  {
    var last :=
      if stop.Some? then Error(ErrorApology, stop.value)
      else if replySave.Some? then Error(ErrorApology, replySave.value)
      else End(id, tReply);
    var events := Framed(id, pieces, last);
    if last.End? then StreamRun(stored + [Message(id, Assistant, Concat(pieces), tReply)], events, None)
    else StreamRun(stored, events, None)
  }

  /** `start`, a content event per piece, then the closing event. */
  function Framed(id: string, pieces: seq<string>, last: Event): (events: seq<Event>)
    requires !last.Content?
    ensures |events| == |pieces| + 2
    ensures events[0] == Start(id) && events[|events| - 1] == last
    ensures forall i :: 0 < i < |events| - 1 ==> events[i] == Content(pieces[i - 1])
    ensures Payloads(events) == pieces
  {
    var body := ContentEvents(pieces);
    var head := [Start(id)] + body;
    assert Payloads(head) == pieces by {
      ContentEventPayloads(pieces);
      PayloadsAppend([Start(id)], body);
      assert [Start(id)][..0] == [];
    }
    var events := head + [last];
    assert events[..|events| - 1] == head;
    events
  }

  /** Payloads distribute over append. */
  lemma {:induction false} PayloadsAppend(a: seq<Event>, b: seq<Event>)
    ensures Payloads(a + b) == Payloads(a) + Payloads(b)
    decreases |b|
  {
    if |b| == 0 {
      assert a + b == a;
    } else {
      var b' := b[..|b| - 1];
      assert (a + b)[..|a + b| - 1] == a + b';
      PayloadsAppend(a, b');
    }
  }

  /** With no failure anywhere and no chunk lacking choices, the stream ends
      with `end`, its content events carry exactly the non-empty deltas in
      arrival order, and the saved assistant text is the whole streamed text. */
  lemma StreamRelaysChunks(backend: Backend, s: Store, id: string, text: string, tUser: nat, tReply: nat,
                           provider: seq<ChatTurn> -> Upstream, chunks: seq<Chunk>)
    requires provider(ProviderContext(s, id, text, tUser)) == Opened(chunks, None)
    requires backend.Nest? || EmptyChoices !in chunks
    ensures var r := ProcessMessageStream(backend, s, id, text, tUser, tReply, NoFaults, provider);
      && Completed(r.events)
      && r.events[0] == Start(id)
      && Payloads(r.events) == NonEmptyDeltas(chunks)
      && ContentText(r.events) == AllDeltas(chunks)
      && r.store == s + [UserMessage(id, text, tUser), Message(id, Assistant, AllDeltas(chunks), tReply)]
  {
    NonEmptyDeltasText(chunks);
  }

  /** The failure boundaries: a failing user save or history read becomes a
      lone `error` event in NestJS and an exception with no events in
      FastAPI; both leave the same store behind. */
  lemma EarlyFailureBoundary(s: Store, id: string, text: string, tUser: nat, tReply: nat,
                             faults: Faults, provider: seq<ChatTurn> -> Upstream)
    requires faults.userSave.Some? || faults.historyRead.Some?
    ensures var reason := if faults.userSave.Some? then faults.userSave.value else faults.historyRead.value;
      var nest := ProcessMessageStream(Nest, s, id, text, tUser, tReply, faults, provider);
      var py := ProcessMessageStream(FastApi, s, id, text, tUser, tReply, faults, provider);
      && nest.events == [Error(ErrorApology, reason)] && nest.raised == None
      && py.events == [] && py.raised == Some(reason)
      && nest.store == py.store
  {
  }

  /** A provider stream that cannot be created yields `[error]` in both
      backends, after the user message was stored. */
  lemma OpenFailureIsLoneError(backend: Backend, s: Store, id: string, text: string, tUser: nat, tReply: nat,
                               faults: Faults, provider: seq<ChatTurn> -> Upstream)
    requires faults.userSave.None? && faults.historyRead.None?
    requires provider(ProviderContext(s, id, text, tUser)).OpenFails?
    ensures var r := ProcessMessageStream(backend, s, id, text, tUser, tReply, faults, provider);
      && r.events == [Error(ErrorApology, provider(ProviderContext(s, id, text, tUser)).reason)]
      && r.raised == None
      && r.store == s + [UserMessage(id, text, tUser)]
  {
  }

  /** A run that opened the stream, ended it with the apology error and left
      the store at `store`. */
  ghost predicate EndsInApology(r: StreamRun, id: string, store: Store)
  {
    && r.raised == None
    && |r.events| >= 2 && r.events[0] == Start(id)
    && r.events[|r.events| - 1].Error?
    && r.events[|r.events| - 1].message == ErrorApology
    && r.store == store
  }

  /** A stream that breaks after it was opened, or whose reply save fails,
      ends with a single `error` after the content already relayed, and no
      assistant message is saved. */
  lemma MidStreamFailureSavesNothing(backend: Backend, s: Store, id: string, text: string, tUser: nat, tReply: nat,
                                     faults: Faults, provider: seq<ChatTurn> -> Upstream, chunks: seq<Chunk>,
                                     failure: Option<string>)
    requires faults.userSave.None? && faults.historyRead.None?
    requires provider(ProviderContext(s, id, text, tUser)) == Opened(chunks, failure)
    requires failure.Some? || faults.replySave.Some?
    ensures EndsInApology(ProcessMessageStream(backend, s, id, text, tUser, tReply, faults, provider),
                          id, s + [UserMessage(id, text, tUser)])
    ensures backend.Nest? || EmptyChoices !in chunks ==>
      Payloads(ProcessMessageStream(backend, s, id, text, tUser, tReply, faults, provider).events)
        == NonEmptyDeltas(chunks)
  {
    assert ProcessMessageStream(backend, s, id, text, tUser, tReply, faults, provider)
        == StreamWith(backend, s, id, text, tUser, tReply, faults, Opened(chunks, failure));
    StreamWithStreams(backend, s, id, text, tUser, tReply, faults, Opened(chunks, failure));
    MidStreamFailure(backend, s + [UserMessage(id, text, tUser)], id, tReply, faults.replySave, chunks, failure);
  }

  /** With the user message saved and the history read, the rest is `Streamed`. */
  lemma StreamWithStreams(backend: Backend, s: Store, id: string, text: string, tUser: nat, tReply: nat,
                          faults: Faults, upstream: Upstream)
    requires faults.userSave.None? && faults.historyRead.None?
    ensures StreamWith(backend, s, id, text, tUser, tReply, faults, upstream)
         == Streamed(backend, s + [UserMessage(id, text, tUser)], id, tReply, faults.replySave, upstream)
  {
  }

  lemma MidStreamFailure(backend: Backend, stored: Store, id: string, tReply: nat, replySave: Option<string>,
                         chunks: seq<Chunk>, failure: Option<string>)
    requires failure.Some? || replySave.Some?
    ensures EndsInApology(Streamed(backend, stored, id, tReply, replySave, Opened(chunks, failure)), id, stored)
    ensures backend.Nest? || EmptyChoices !in chunks ==>
      Payloads(Streamed(backend, stored, id, tReply, replySave, Opened(chunks, failure)).events)
        == NonEmptyDeltas(chunks)
  {
  }

  /** The backends stream identically once the user message and history are
      in place, unless a chunk arrives without choices. */
  lemma StreamBackendsAgree(s: Store, id: string, text: string, tUser: nat, tReply: nat,
                            faults: Faults, provider: seq<ChatTurn> -> Upstream)
    requires faults.userSave.None? && faults.historyRead.None?
    requires provider(ProviderContext(s, id, text, tUser)).Opened? ==>
               EmptyChoices !in provider(ProviderContext(s, id, text, tUser)).chunks
    ensures ProcessMessageStream(Nest, s, id, text, tUser, tReply, faults, provider)
         == ProcessMessageStream(FastApi, s, id, text, tUser, tReply, faults, provider)
  {
  }

  /** A chunk without choices is skipped by NestJS and ends the FastAPI
      stream with an index error, with nothing saved. */
  lemma EmptyChoicesBreaksFastApi(s: Store, id: string, text: string, tUser: nat, tReply: nat,
                                  provider: seq<ChatTurn> -> Upstream, before: seq<Chunk>, after: seq<Chunk>)
    requires provider(ProviderContext(s, id, text, tUser)) == Opened(before + [EmptyChoices] + after, None)
    requires EmptyChoices !in before
    ensures var r := ProcessMessageStream(FastApi, s, id, text, tUser, tReply, NoFaults, provider);
      && r.events[|r.events| - 1] == Error(ErrorApology, IndexErrorText)
      && Payloads(r.events) == NonEmptyDeltas(before)
      && r.store == s + [UserMessage(id, text, tUser)]
  {
    var chunks := before + [EmptyChoices] + after;
    assert ProcessMessageStream(FastApi, s, id, text, tUser, tReply, NoFaults, provider)
        == StreamWith(FastApi, s, id, text, tUser, tReply, NoFaults, Opened(chunks, None));
    RelayBreaksAt(before, after);
  }

  lemma {:induction false} RelayBreaksAt(before: seq<Chunk>, after: seq<Chunk>)
    requires EmptyChoices !in before
    ensures Relay(FastApi, before + [EmptyChoices] + after) == Relayed(NonEmptyDeltas(before), Some(IndexErrorText))
  {
    var all := before + [EmptyChoices] + after;
    if |before| == 0 {
      assert all[0] == EmptyChoices;
    } else {
      assert all[0] == before[0];
      assert all[1..] == before[1..] + [EmptyChoices] + after;
      assert before[1..] + [] == before[1..];
      RelayBreaksAt(before[1..], after);
    }
  }

  /** The stream and the blocking reply agree: when the blocking provider
      returns, as one non-empty choice, the text the stream delivers in
      pieces, both leave the same store, and the blocking reply is the
      streamed text. */
  lemma StreamAgreesWithBlocking(backend: Backend, s: Store, id: string, text: string, tUser: nat, tReply: nat,
                                 streaming: seq<ChatTurn> -> Upstream, blocking: seq<ChatTurn> -> Completion,
                                 chunks: seq<Chunk>)
    requires streaming(ProviderContext(s, id, text, tUser)) == Opened(chunks, None)
    requires backend.Nest? || EmptyChoices !in chunks
    requires blocking(ProviderContext(s, id, text, tUser)) == Choice(AllDeltas(chunks))
    requires AllDeltas(chunks) != ""
    ensures var st := ProcessMessageStream(backend, s, id, text, tUser, tReply, NoFaults, streaming);
      var bl := ProcessMessage(backend, s, id, text, tUser, tReply, NoFaults, blocking);
      && bl.Returned?
      && bl.reply == Answered(ContentText(st.events), id, tReply)
      && bl.store == st.store
  {
    StreamRelaysChunks(backend, s, id, text, tUser, tReply, streaming, chunks);
  }
}
